=== FILE: README.md ===
# Kannada speech screening: scoring, record and report rules

This project models the deterministic core of a Kannada speech-screening
tool. A child reads target words aloud. The speech is transcribed and split
into aksharas and phonemes, and compared with the targets. Every target
item gets a SODA label: Substitution, Omission, Distortion, Addition, or
correct. The labels are counted, stored as reports on the child's record,
and printed in a PDF. The report page turns them into word lists, practice
syllables and a suggestion tier.

The model is split into modules that follow the program:

- `Js` (`js_values.dfy`): JSON values as the Node backend and the browser
  page handle them. It covers truthiness, `?.`, `||`, `??`, and `undefined`
  as `None`.
- `Seqs` (`seqs.dfy`): sequence vocabulary. It defines concatenation,
  subsequence, order-preserving `filter`, and first-occurrence
  de-duplication (`[...new Set(xs)]`).
- `Akshara` (`akshara.dfy`): the two copies of the akshara segmenter,
  Python and JavaScript. One scanner serves both, with a `Variant` flag.
  It is specified against a grammar of well-formed aksharas: each emitted
  unit is the longest well-formed prefix of what remains.
- `Alignment` (`alignment.dfy`): `align_phonemes_string`,
  `align_phonemes_list` and `extract_substitutions`. They are specified
  against a position-by-position reference alignment and a closed-form
  summary.
- `LetterIdentification` (`letter_identification.dfy`): omission, addition,
  substitution and distortion syllables for practice suggestions.
- `Soda` (`soda.dfy`): `summarizeSODA` and `overallFromSummary`.
  `summarizeSODA` exists in three identical copies: server-production.js
  lines 66-82, server.js lines 62-78 and report.js lines 343-359.
- `ServerRules` (`server_rules.dfy`): the backend's child-record and report
  rules. These cover gender normalisation, the phone default, the
  allowed-field filter, id assignment, update merge, report construction
  and append, and the PDF's summary defaults, totals and grouping.
- `ReportDetails` (`report_details.dfy`): `buildReportDetails` on the
  report page. It covers the correct and error filters, word lists,
  practice syllables, the age filter and the four-tier suggestion.

Some behaviours of the code that a reader may not expect:

- Segmentation does not distribute over concatenation
  (`Akshara.NotCompositional`). "ಕ" and "ಾ" split separately give two
  aksharas; "ಕಾ" gives one.
- An `error_type` that is not exactly one of the four labels counts as
  Correct in `summarizeSODA`. This includes a lower-case "distortion", a
  missing label and a null item. It is not rejected.
- The two backends build a report with different key orders. On an
  explicit `"date": null` the JSON-file backend stores the current time,
  and the MongoDB backend stores null (`ServerRules.NullDateDiffers`).
- The report page's correct filter (`error_type === ""`) and error filter
  are not complementary. A result can be in both or in neither
  (`ReportDetails.FiltersOverlapAndGap`).

## Model

| member | source | states |
|---|---|---|
| Akshara.ClassesDisjoint | Python_services/syllable_Comparision/akshara_splitting.py:1-8 | consonant, vowel-sign and anusvara/visarga classes never overlap, and the halant belongs to none of them |
| Akshara.SplitIntoAksharas | Python_services/syllable_Comparision/akshara_splitting.py:10-40 | the aksharas concatenate back to the word, none is empty, there are at most as many as characters, and only the empty word gives none |
| Akshara.SplitIntoAksharasJs | Python_services/syllable_Comparision/akshara_splitting.js:1-27 | the JavaScript copy also loses and invents no characters: its aksharas concatenate back to the word and none is empty |
| Akshara.Split | Python_services/syllable_Comparision/akshara_splitting.py:12-40 | the index-driven outer loop emits exactly the akshara sequence of the reference scan, so nothing is skipped or duplicated |
| Akshara.ScanAkshara | Python_services/syllable_Comparision/akshara_splitting.py:15-36 | the inner cluster, vowel-sign and diacritic steps stop exactly at the end of the current akshara, always past its first character |
| Akshara.UnitEndIsLongest | Python_services/syllable_Comparision/akshara_splitting.py:15-36 | each emitted unit is a well-formed akshara (base, halant-consonant pairs, at most one vowel sign, then marks) and no longer prefix is one |
| Akshara.SplitFromIsGreedyParse | Python_services/syllable_Comparision/akshara_splitting.py:14-38 | the output cuts the word into longest well-formed akshara prefixes, one after another |
| Akshara.GreedyParseUnique | Python_services/syllable_Comparision/akshara_splitting.py:14-38 | there is only one way to cut a word into longest akshara prefixes |
| Akshara.SplitCharacterized | Python_services/syllable_Comparision/akshara_splitting.py:10-40 | a list of strings is the segmenter's output exactly when it is the greedy longest-prefix parse of the word |
| Akshara.TailShape | Python_services/syllable_Comparision/akshara_splitting.py:19-36 | after the base character every halant is followed by a consonant, at most one vowel sign occurs and only marks follow it, and the JavaScript variant admits no marks |
| Akshara.HalantAlwaysJoins | Python_services/syllable_Comparision/akshara_splitting.py:19-26 | inside any emitted akshara a halant past the first position is always followed by a consonant of the same akshara |
| Akshara.OneVowelSign | Python_services/syllable_Comparision/akshara_splitting.py:28-36 | an emitted akshara carries at most one vowel sign, and in the Python copy only anusvara or visarga may follow it |
| Akshara.JsDiacriticsStandAlone | Python_services/syllable_Comparision/akshara_splitting.js:17-23 | the JavaScript copy never attaches anusvara or visarga to a preceding akshara |
| Akshara.AksharaSplitsToItself | Python_services/syllable_Comparision/akshara_splitting.py:14-38 | a well-formed akshara segmented on its own comes back as exactly one unit |
| Akshara.ResplitUnit | Python_services/syllable_Comparision/akshara_splitting.py:10-40 | re-segmenting any emitted akshara on its own gives back that akshara unchanged |
| Akshara.SplitCopiesAgree | Python_services/syllable_Comparision/akshara_splitting.js:1-27 | on text without anusvara or visarga the JavaScript and Python copies give the same aksharas |
| Akshara.ExampleConjunct | Python_services/syllable_Comparision/akshara_splitting.py:19-26 | "ಕನ್ನಡ" splits into "ಕ", "ನ್ನ", "ಡ": the conjunct stays together |
| Akshara.ExampleVowelSign | Python_services/syllable_Comparision/akshara_splitting.py:28-31 | "ಕಾ" is one akshara in both copies |
| Akshara.ExampleLoneHalant | Python_services/syllable_Comparision/akshara_splitting.py:19-23 | a final halant with no consonant after it becomes an akshara of its own |
| Akshara.ExampleAnusvara | Python_services/syllable_Comparision/akshara_splitting.py:33-36 | the Python copy keeps "ಕಂ" whole, the JavaScript copy splits off the anusvara |
| Akshara.NotCompositional | Python_services/syllable_Comparision/akshara_splitting.py:10-40 | segmenting two strings separately can differ from segmenting their concatenation |
| Alignment.AlignPhonemesString | Python_services/utils/alignment.py:1-38 | position k pairs target[k] with spoken[k] while both last, then lists the leftover side as Omission or Addition; the summary counts matches, mismatches and the length difference |
| Alignment.EntryKinds | Python_services/utils/alignment.py:11-24 | a shared position is Correct exactly when the two elements are equal and Substitution otherwise; past the spoken end it is an Omission with "" spoken, past the target end an Addition with "" target |
| Alignment.PositionalCounts | Python_services/utils/alignment.py:26-36 | counting the kinds of the positional alignment gives the closed-form summary, with D always 0 |
| Alignment.SummaryShape | Python_services/utils/alignment.py:26-38 | the alignment is as long as the longer list, Correct+S+O+A equals that length, O and A are the length difference on the matching side and never both non-zero, and D is 0 |
| Alignment.IdenticalInputs | Python_services/utils/alignment.py:1-38 | aligning a list with itself marks every position Correct and counts no errors |
| Alignment.MatchesBound | Python_services/utils/alignment.py:12-16 | every shared position matches exactly when the match count equals the number of shared positions |
| Alignment.WalkIsPositional | Python_services/utils/alignment.py:54-89 | the two-pointer walk of the list version produces, from any reachable pointer state, the positional entries from there on |
| Alignment.TallyListCounts | Python_services/utils/alignment.py:91-103 | the list version's tally counts each kind of entry in the alignment |
| Alignment.AlignListAgreesWithString | Python_services/utils/alignment.py:41-105 | the list version returns the same alignment and summary as the string version |
| Alignment.ExtractSubstitutions | Python_services/utils/alignment.py:108-121 | the zip walk returns the differing pairs of the shared positions in position order, each with unequal sides, as many as the alignment summary's S count |
| Alignment.ExtractMatchesAlignment | Python_services/utils/alignment.py:114-119 | the extracted pairs equal the pairs carried by the alignment's Substitution entries |
| Alignment.DiffPairsShape | Python_services/utils/alignment.py:114-119 | the number of extracted pairs is the number of shared positions minus the matches |
| LetterIdentification.IdentifyOmission | Python_services/utils/letter_identification.py:9-30 | the omitted syllables are a subsequence of the target, each target syllable absent from the speech keeps its multiplicity, and the result is empty exactly when every target syllable was spoken |
| LetterIdentification.IdentifyAddition | Python_services/utils/letter_identification.py:33-54 | the added syllables are a subsequence of the speech, each spoken syllable absent from the target keeps its multiplicity, and the result is empty exactly when every spoken syllable is in the target |
| LetterIdentification.OmissionIsNotPositional | Python_services/utils/letter_identification.py:25-28 | a repeated target syllable spoken once is not reported as omitted, although the positional alignment marks an Omission |
| LetterIdentification.IdentifySubstitutionAsWritten | Python_services/utils/letter_identification.py:57-106 | the call raises IndexError exactly when the lists differ in length; otherwise it returns the differing pairs, which are the alignment's Substitution pairs and empty exactly when the lists are equal |
| LetterIdentification.SubstitutionRaisesOnShortSpeech | Python_services/utils/letter_identification.py:75-79 | a target one syllable longer than the speech makes the code as written raise, in substitution and in distortion alike, where the intended result is one pair with an empty spoken side |
| LetterIdentification.IdentifySubstitution | Python_services/utils/letter_identification.py:72-106 | the intended result has one pair for every non-Correct alignment position, as many pairs as S+O+A; it is empty exactly when the lists are equal, and it agrees with the code as written on lists of equal length |
| LetterIdentification.IdentifyDistortion | Python_services/utils/letter_identification.py:109-126 | distortion inherits substitution as written: it raises IndexError exactly when the lists differ in length, and otherwise reports one pair per non-Correct alignment position, the corrected substitution's pairs, none exactly when the lists are equal |
| Soda.BucketOfLabels | Backend_main/server-production.js:74-79 | an item is counted under an error label exactly when its error_type is that exact string, and as Correct exactly when it is none of the four |
| Soda.CounterCountsBucket | Backend_main/server-production.js:74-80 | every counter of the summary equals the number of items the label chain sends to it |
| Soda.ErrorCounter | Backend_main/server-production.js:74-78 | each error counter equals the number of items whose error_type is exactly that label |
| Soda.CorrectCounter | Backend_main/server-production.js:79 | the Correct counter equals the number of items carrying none of the four labels |
| Soda.SummaryCounts | Backend_main/server-production.js:66-82 | the five counts are the sizes of the five label filters over the results |
| Soda.TotalIsLength | Backend_main/server-production.js:66-82 | every item lands in exactly one counter: the counts sum to the number of results |
| Soda.CountsConserved | Backend_main/server-production.js:74-79 | the four label filters and the unlabelled filter partition the results |
| Soda.CorrectFallback | Backend_main/server-production.js:79 | null items, missing labels, empty labels and wrongly cased labels are all counted as Correct |
| Soda.OverallFromSummary | Frontend_main/js/report.js:361-365 | the score is a percentage in 0..100, 0 for an empty summary, and otherwise Correct/total*100 rounded to the nearest integer |
| Soda.OverallExamples | Frontend_main/js/report.js:361-365 | 3 correct of 4 scores 75; no correct items or no items scores 0 |
| Soda.AllCorrectSummary | Frontend_main/js/report.js:343-359 | results with no error label are all counted as Correct and nothing else |
| Soda.OverallAllCorrect | Frontend_main/js/report.js:361-365 | a non-empty summary with only Correct items scores 100 |
| Soda.AllCorrectScoresHundred | Frontend_main/js/report.js:343-365 | a non-empty session with no error labels scores 100 |
| ServerRules.NormalizeGender | Backend_main/server-production.js:231-236 | the stored gender reads the same as the input ignoring ASCII case; it is one of the canonical spellings "Male", "Female", "Other" exactly when the input is one of the three in some case, and is the input itself otherwise |
| ServerRules.NormalizeGenderIdempotent | Backend_main/server-production.js:231-236 | normalising an already normalised gender changes nothing |
| ServerRules.ApplyGenderRule | Backend_main/server-production.js:280-285 | the rule fails exactly on a truthy non-string gender; otherwise it changes at most the gender, normalised when truthy, and keeps every other field and the key set |
| ServerRules.DefaultPhone | Backend_main/server-production.js:229 | a falsy or missing phone becomes "", a truthy one is kept, and no other field changes |
| ServerRules.FilterAllowedFields | Backend_main/server-production.js:238-251 | the stored record keeps exactly the present allowed fields, with their values unchanged |
| ServerRules.NewChildRecord | Backend_main/server-production.js:227-251 | a new MongoDB record holds exactly the allowed fields the body has, plus the phone; the phone is the body's when truthy and "" otherwise; a truthy gender is normalised and a falsy one copied; every other field is the body's; creation fails only on a truthy non-string gender |
| ServerRules.FindChild | Backend_main/server-production.js:299 | the first index whose record id strictly equals the requested id, or none exactly when no record has it |
| ServerRules.NextId | Backend_main/server-production.js:260-262 | the next id is the last id plus one as JavaScript's `+` computes it: a number plus one, 1 for a null or false id, 2 for a true one, the string with "1" appended for a string id, null (NaN as the file stores it) for a missing id, and 1 for an empty file; there is none only for an array id; while stored ids increase along the file it is a number above every one of them |
| ServerRules.NextIdIsFresh | Backend_main/server-production.js:260-262 | while stored ids increase along the file, no record already has the next id |
| ServerRules.NullIdRepeatsId | Backend_main/server-production.js:260-262 | after a record whose id was written as null, the next id is 1 again, an id the first record already has |
| ServerRules.StringIdConcatenates | Backend_main/server-production.js:260-263 | after a record with the string id "5" the new child is appended with the id "51", and no numeric id finds it |
| ServerRules.AddChild | Backend_main/server-production.js:257-263 | appending keeps the existing records and fails only where the next id is not modelled (an array last id); the new record has exactly the body's fields plus the id (and phone in the production server), the next id, the body's values elsewhere, and in the production server the body's phone when truthy and "" otherwise |
| ServerRules.MergeUpdate | Backend_main/server-production.js:305-309 | the updated record has the body's values over the stored ones, keeps stored fields the body lacks, and its id is the requested id |
| ServerRules.UpdateChild | Backend_main/server-production.js:297-311 | an update fails exactly when no record has the id; otherwise only the first matching record is replaced by the merge and the others are untouched |
| ServerRules.UpdateKeepsId | Backend_main/server-production.js:305-309 | after an update the record is found at the same index under the same id |
| ServerRules.StoredReport | Backend_main/server-production.js:363-368 | the report carries every incoming field, then a date (incoming when truthy, else now), the normalised results and a truthy summary |
| ServerRules.StoredReportMongo | Backend_main/server-production.js:337-342 | in the MongoDB report an incoming date, even a falsy one, overrides the default because the spread comes after it |
| ServerRules.NullDateDiffers | Backend_main/server-production.js:338 | an explicit null date is replaced by the current time in the file backend but kept as null in the MongoDB backend |
| ServerRules.StoredSummaryCounts | Backend_main/server-production.js:358-367 | when the body has no truthy summary, the stored summary is computed from the stored results and counts each of them exactly once |
| ServerRules.ResubmittedReportUnchanged | Backend_main/server-production.js:358-368 | posting a stored report again stores the same report: the results are already an array, the summary is truthy and the date is set, so no default applies twice |
| ServerRules.AppendReport | Backend_main/server-production.js:370-371 | a non-array reports field is reset to empty and the new report is appended last; nothing else in the record changes |
| ServerRules.AddReport | Backend_main/server-production.js:350-371 | adding a report fails exactly when no record has the id; otherwise the first such child gets a reports array equal to its old reports (none if not an array) plus the stored report, keeps its other fields and gains no other key, and every other record is unchanged |
| ServerRules.SummaryField | Backend_main/server-production.js:527-531 | a printed summary field is the stored value unless it is missing or null, in which case it is 0; it is never null |
| ServerRules.PdfSummary | Backend_main/server-production.js:527-532 | the PDF summary has all five keys, each defaulted from the report's summary |
| ServerRules.PrintedCorrectIsDefaulted | Backend_main/server-production.js:652 | the second `?? 0` on the printed Correct count never changes it |
| ServerRules.SummaryFieldOfCounts | Backend_main/server-production.js:527-531 | for a stored computed summary, each printed field is the stored count |
| ServerRules.PdfShowsCounts | Backend_main/server-production.js:652-655 | for a report whose summary holds computed counts, the PDF prints its Correct count and, as the error total (the sum of the four error fields), all items minus the correct ones |
| ServerRules.PdfListsStoredResults | Backend_main/server-production.js:520-525 | the PDF of a report stored by the file backend lists exactly the results that were stored |
| ServerRules.GroupKey | Backend_main/server-production.js:683-685 | a null row has no group because reading it throws; a row labelled with one of the four labels, or with a falsy type, is grouped under the name of the counter summarizeSODA adds it to; any other truthy type is a group of its own although the summary counts it as Correct |
| ServerRules.PdfRows | Backend_main/server-production.js:683-685 | the rows under a heading are the results in that group, in order and with multiplicity; grouping fails exactly when a row is null |
| ServerRules.ErrorGroupMatchesCount | Backend_main/server-production.js:683-685 | the rows printed under an error label are as many as the summary's count for that label |
| ServerRules.CorrectGroupAtMostCount | Backend_main/server-production.js:683-685 | the rows printed under "Correct" are never more than the Correct count |
| ServerRules.UnknownTypeInNoGroup | Backend_main/server-production.js:683-685 | a row with an unknown label is counted as Correct but printed under no heading |
| ReportDetails.PageReadsStoredResults | Frontend_main/js/report.js:424 | the report page reads back exactly the result list the file backend stored in the report |
| ReportDetails.CorrectResults | Frontend_main/js/report.js:426 | the correct list keeps, in order and with multiplicity, exactly the results whose error_type is "" |
| ReportDetails.ErrorResults | Frontend_main/js/report.js:427-429 | the error list keeps, in order and with multiplicity, exactly the results with a truthy error_type or a positive distortion score |
| ReportDetails.FiltersOverlapAndGap | Frontend_main/js/report.js:426-429 | a result is in both lists exactly when its label is "" and its score positive, and in neither exactly when its label is falsy but not "" and its score not positive |
| ReportDetails.FilterExamples | Frontend_main/js/report.js:426-429 | an empty label with score 0.5 lands in both lists; a result without fields lands in neither, although the summary counts it as Correct |
| ReportDetails.UniqueNonBlank | Frontend_main/js/report.js:470-472 | each word that is not blank appears once, in order of first appearance, and blank words are dropped |
| ReportDetails.WordList | Frontend_main/js/report.js:461-485 | a word is listed exactly when it is not blank and some result produces it (from its target syllables when there are any, else its target_word), and no word is listed twice |
| ReportDetails.FlatSyllablesMembers | Frontend_main/js/report.js:489-499 | a value occurs in the flattened list exactly when it is the mapped form of some error syllable of some error result |
| ReportDetails.FlatSyllablesExample | Frontend_main/js/report.js:489-499 | a string, an object with a target, a number, an object without one and "" map to "ka", "ga", null, null, "" |
| ReportDetails.PracticeRaw | Frontend_main/js/report.js:489-500 | the raw practice list is the flattened list with falsy entries dropped, order and multiplicity kept |
| ReportDetails.PracticeRawMembers | Frontend_main/js/report.js:489-500 | a value is a raw practice syllable exactly when it is truthy and comes from some error syllable |
| ReportDetails.PracticeRawSources | Frontend_main/js/report.js:489-500 | the raw practice syllables are exactly the non-empty string syllables and the truthy targets of object syllables of the error results; numbers, booleans, arrays and objects without a truthy target contribute nothing |
| ReportDetails.UniquePractice | Frontend_main/js/report.js:503-515 | a practice word is listed exactly when it is not blank and is the conversion of some raw syllable, converted one syllable at a time; each is listed once |
| ReportDetails.PracticeArrayByAge | Frontend_main/js/report.js:289-294 | the page always gets one of the three defined age lists, never undefined: the stored age's list when it has one, and the age-2 list when the age is missing or has no list |
| ReportDetails.PracticeArrayIsJsLookup | Frontend_main/js/report.js:289-294 | the page's own lookup, the stored age's entry of its object of word arrays or else the age-2 entry by truthiness, yields exactly the list PracticeArrayByAge picks: every list is a truthy array, so the fallback fires only on an absent key, and a missing item looks up "null", which has no list |
| ReportDetails.AgeFallback | Frontend_main/js/report.js:289-294 | a missing age and an unknown age both fall back to the age-2 list |
| ReportDetails.FilteredPractice | Frontend_main/js/report.js:517-518 | the filtered practice list keeps, in order, exactly the practice words on the age list, without duplicates |
| ReportDetails.SuggestionTiers | Frontend_main/js/report.js:521-535 | no practice words gives "no errors"; words none of which are on the age list give the minor tier; one or two on the list give tier 2; more give tier 3 |
| ReportDetails.BuildReportDetails | Frontend_main/js/report.js:423-543 | the lists have no duplicates, the practice list is the age-filtered subsequence of the unique practice list, and "no errors" is chosen exactly when there is nothing to practise |
| ReportDetails.EmptyReportHasNoErrors | Frontend_main/js/report.js:423-543 | a report without results has empty lists and the "no errors" suggestion |

## Left out

- HTTP routing, status codes and response bodies are left out. Authentication middleware is left out too. Each handler is modelled as a function from its inputs to the new data.
- The MongoDB calls (`findOne`, `findOneAndUpdate` with schema validation, the id `Counter` model) are external. The model keeps the data rules the handlers apply before them.
- Reading and writing the children file are I/O. The file's contents are the `children` parameter.
- Clocks are external: `new Date()` and `toISOString()` are the `now` parameter, and `toLocaleString` is left out.
- `localStorage` is external: the stored age is the `age` parameter.
- PDF layout, fonts, colours and page breaks are presentation. Only the values placed on the page are modelled.
- The IPA-to-Kannada conversion (`ipa2kannada_value`, reached over HTTP) is external: it is the `toWord` and `toKannada` parameters.
- The report-history chart, the GET handlers, the search filter and the other frontend pages are not part of the scoring core.
- The audio, transcription and distortion services are not part of this model. Neither are `addition_or_omission`, `syllabify_main`, cloud storage and the admin pages.
- `parseInt` on the route id is modelled as an integer id parameter, so a non-numeric id (NaN, which matches no record) is not modelled.
- JSON numbers are exact reals, so NaN, infinities and floating-point rounding are not modelled.
- The console logging in `identify_omission`, `identify_addition` and `identify_substitution` writes to standard output only and is not modelled.
- Soda.OverallFromSummary: it is stated over the five-count summary, with exact rounding of Correct/total*100 (halves round up). It does not model `Object.values` over arbitrary objects or the floating-point rounding of `Math.round`.
- Akshara.SplitCopiesAgree: both copies are modelled over Unicode code points. The JavaScript copy really indexes UTF-16 code units, so a character outside the Basic Multilingual Plane becomes two lone-surrogate units there and one unit in Python. On such text the copies disagree and the lemma does not describe the JavaScript copy.
- Akshara.SplitIntoAksharasJs: for the same reason, it does not model the JavaScript copy splitting a character outside the Basic Multilingual Plane into its two surrogate halves.
- ServerRules.StoredReportMongo: it is the report object the handler builds. The `Child` schema (models/Child.js) then decides which fields persist; for instance it has no `summary` field. That schema step is not modelled.
- ServerRules.NormalizeGender: `toLowerCase` is modelled for ASCII letters only. That suffices for the three recognised values but not for other scripts.
- ServerRules.TotalErrors: a count that is not a number is reported as no total instead of modelled: JavaScript's `+` concatenates strings, arrays and objects, and converts a boolean count to 0 or 1.
- ServerRules.AddChild: when the last record's id is an array, the handler appends the child with the array's string form followed by "1" as its id; the model has no result there, because the string form of array elements is not modelled.
- ReportDetails.ErrorResults: `> 0` on strings and arrays is treated as false rather than as a numeric conversion.
- ReportDetails.WordList: a `target_word` that is not a string is treated as "".
- ReportDetails.CorrectResults: it requires that no result is null. The page throws on a null result when reading `error_type` with plain `.`, so null results are outside the model.
- ReportDetails.PracticeSyllable: it requires a non-null syllable. `typeof null` is "object", so reading `.target` from null throws in the source.
- ReportDetails.BuildReportDetails: it requires that no result and no error syllable is null, for the same reason.

## Findings

| source | as written | input that shows it | evidently intended | confidence | as-written member | corrected member |
|---|---|---|---|---|---|---|
| Python_services/utils/letter_identification.py:77-104 | each iteration reads `target_syllable[i]` and `spoken_syllable[i]` before checking either length, so lists of different lengths raise IndexError; the branches that pad with "" can never run | target ["ಕ", "ನ"], spoken ["ಕ"] | the loop's own comments: pair a leftover target syllable with "" and a leftover spoken one with "", giving one pair per non-matching position | high (not executed) | LetterIdentification.IdentifySubstitutionAsWritten | LetterIdentification.IdentifySubstitution |

=== FILE: akshara.dfy ===
/**
 * Akshara (orthographic syllable) segmentation of Kannada text.
 *
 * Two live copies of the segmenter exist, a Python one and a JavaScript
 * one. Both scan left to right without backtracking: one base character,
 * then every adjacent (halant, consonant) pair, then at most one dependent
 * vowel sign. Only the Python copy then absorbs trailing anusvara/visarga
 * signs. The copies share one scanner here, selected by `Variant`.
 */
module Akshara {
  import opened Seqs

  datatype Variant = Python | JavaScript

  const HALANT: char := '\U{0CCD}'
  const CONSONANT_FIRST: char := '\U{0C95}'
  const CONSONANT_LAST: char := '\U{0CB9}'
  const VOWEL_SIGN_FIRST: char := '\U{0CBE}'
  const VOWEL_SIGN_LAST: char := '\U{0CCC}'
  const AU_LENGTH_MARK: char := '\U{0CD5}'
  const AI_LENGTH_MARK: char := '\U{0CD6}'
  const ANUSVARA: char := '\U{0C82}'
  const VISARGA: char := '\U{0C83}'

  predicate IsConsonant(c: char) {
    CONSONANT_FIRST <= c <= CONSONANT_LAST
  }

  predicate IsVowelSign(c: char) {
    (VOWEL_SIGN_FIRST <= c <= VOWEL_SIGN_LAST) || c == AU_LENGTH_MARK || c == AI_LENGTH_MARK
  }

  predicate IsDiacritic(c: char) {
    c == ANUSVARA || c == VISARGA
  }

  /** The three character classes are pairwise disjoint, and the halant is in none of them. */
  lemma ClassesDisjoint(c: char)
    ensures !(IsConsonant(c) && IsVowelSign(c))
    ensures !(IsConsonant(c) && IsDiacritic(c))
    ensures !(IsVowelSign(c) && IsDiacritic(c))
    ensures !IsConsonant(HALANT) && !IsVowelSign(HALANT) && !IsDiacritic(HALANT)
  {
  }

  // ---------------------------------------------------------------------
  // The scanner, position by position over the whole word
  // ---------------------------------------------------------------------

  /** Position after the chain of (halant, consonant) pairs starting at `i`. */
  function ClusterEnd(w: string, i: nat): (r: nat)
    requires i <= |w|
    ensures i <= r <= |w|
    decreases |w| - i
  {
    if i + 1 < |w| && w[i] == HALANT && IsConsonant(w[i + 1]) then ClusterEnd(w, i + 2) else i
  }

  /** Position after the optional vowel sign at `i`. */
  function VowelSignEnd(w: string, i: nat): (r: nat)
    requires i <= |w|
    ensures i <= r <= |w|
  {
    if i < |w| && IsVowelSign(w[i]) then i + 1 else i
  }

  /** Position after the run of anusvara/visarga signs starting at `i`. */
  function DiacriticEnd(w: string, i: nat): (r: nat)
    requires i <= |w|
    ensures i <= r <= |w|
    decreases |w| - i
  {
    if i < |w| && IsDiacritic(w[i]) then DiacriticEnd(w, i + 1) else i
  }

  /** Position after the akshara whose base character is `w[i]`. */
  function UnitEnd(w: string, i: nat, v: Variant): (r: nat)
    requires i < |w|
    ensures i < r <= |w|
  {
    var afterVowel := VowelSignEnd(w, ClusterEnd(w, i + 1));
    match v
    case Python => DiacriticEnd(w, afterVowel)
    case JavaScript => afterVowel
  }

  /** The aksharas of `w[i..]`, in order. */
  function SplitFrom(w: string, i: nat, v: Variant): (r: seq<string>)
    requires i <= |w|
    ensures Concat(r) == w[i..]
    ensures forall k :: 0 <= k < |r| ==> r[k] != []
    ensures |r| <= |w| - i
    ensures |r| == 0 <==> i == |w|
    decreases |w| - i
  {
    if i == |w| then []
    else
      var j := UnitEnd(w, i, v);
      var rest := SplitFrom(w, j, v);
      assert w[i..] == w[i..j] + w[j..];
      assert ([w[i..j]] + rest)[1..] == rest;
      [w[i..j]] + rest
  }

  /** `split_into_aksharas` (Python copy). */
  function SplitIntoAksharas(word: string): (r: seq<string>)
    ensures Concat(r) == word
    ensures forall k :: 0 <= k < |r| ==> r[k] != []
    ensures word == [] <==> r == []
    ensures word != [] ==> 1 <= |r| <= |word| && r[0][0] == word[0]
  {
    SplitFrom(word, 0, Python)
  }

  /** `splitIntoAksharas` (JavaScript copy, no diacritic step). */
  function SplitIntoAksharasJs(word: string): (r: seq<string>)
    ensures Concat(r) == word
    ensures forall k :: 0 <= k < |r| ==> r[k] != []
    ensures word == [] <==> r == []
    ensures word != [] ==> 1 <= |r| <= |word| && r[0][0] == word[0]
  {
    SplitFrom(word, 0, JavaScript)
  }

  /**
   * The scan as the source writes it: an index, one akshara per outer
   * iteration, an inner loop for conjunct chains, one vowel-sign check and,
   * for the Python copy, a loop over diacritics.
   */
  method Split(word: string, v: Variant) returns (aksharas: seq<string>)
    ensures aksharas == SplitFrom(word, 0, v)
    ensures Concat(aksharas) == word
  {
    aksharas := [];
    var i := 0;
    while i < |word|
      invariant 0 <= i <= |word|
      invariant aksharas + SplitFrom(word, i, v) == SplitFrom(word, 0, v)
      decreases |word| - i
    {
      var end := ScanAkshara(word, i, v);
      var akshara := word[i..end];
      SplitStep(word, i, v, aksharas);
      aksharas := aksharas + [akshara];
      i := end;
    }
  }

  lemma SplitStep(word: string, i: nat, v: Variant, done: seq<string>)
    requires i < |word|
    ensures var j := UnitEnd(word, i, v);
      (done + [word[i..j]]) + SplitFrom(word, j, v) == done + SplitFrom(word, i, v)
  {
    var j := UnitEnd(word, i, v);
    assert SplitFrom(word, i, v) == [word[i..j]] + SplitFrom(word, j, v);
  }

  /** One outer iteration of the scan: where the akshara based at `start` ends. */
  method ScanAkshara(word: string, start: nat, v: Variant) returns (i: nat)
    requires start < |word|
    ensures i == UnitEnd(word, start, v)
    ensures start < i <= |word|
  {
    i := start + 1;
    while i + 1 < |word| && word[i] == HALANT && IsConsonant(word[i + 1])
      invariant start < i <= |word|
      invariant ClusterEnd(word, i) == ClusterEnd(word, start + 1)
      decreases |word| - i
    {
      i := i + 2;
    }
    if i < |word| && IsVowelSign(word[i]) {
      i := i + 1;
    }
    if v == Python {
      while i < |word| && IsDiacritic(word[i])
        invariant start < i <= |word|
        invariant DiacriticEnd(word, i) == UnitEnd(word, start, v)
        decreases |word| - i
      {
        i := i + 1;
      }
    }
  }

  // ---------------------------------------------------------------------
  // Reference grammar of one akshara
  // ---------------------------------------------------------------------

  /** What may follow the vowel-sign slot: anusvara/visarga signs (Python) or nothing (JavaScript). */
  predicate IsMarks(s: string, v: Variant) {
    match v
    case Python => forall k :: 0 <= k < |s| ==> IsDiacritic(s[k])
    case JavaScript => s == []
  }

  /** What may follow the conjunct chain: an optional vowel sign, then marks. */
  predicate IsAfterCluster(s: string, v: Variant) {
    if |s| >= 1 && IsVowelSign(s[0]) then IsMarks(s[1..], v) else IsMarks(s, v)
  }

  /** What may follow the base character: (halant consonant)* vowel-sign? marks. */
  predicate IsTail(s: string, v: Variant)
    decreases |s|
  {
    if |s| >= 2 && s[0] == HALANT && IsConsonant(s[1]) then IsTail(s[2..], v)
    else IsAfterCluster(s, v)
  }

  /** A well-formed akshara: any base character followed by a well-formed tail. */
  predicate IsAkshara(u: string, v: Variant) {
    |u| >= 1 && IsTail(u[1..], v)
  }

  /** `s[..n]` is the longest prefix of `s` that is an akshara. */
  predicate IsLongestAksharaPrefix(s: string, n: nat, v: Variant) {
    && n <= |s|
    && IsAkshara(s[..n], v)
    && forall m :: n < m <= |s| ==> !IsAkshara(s[..m], v)
  }

  /** `units` cuts `s` into longest akshara prefixes, one after another. */
  predicate IsGreedyParse(s: string, units: seq<string>, v: Variant)
    decreases |units|
  {
    if units == [] then s == []
    else
      && |units[0]| <= |s|
      && s[..|units[0]|] == units[0]
      && IsLongestAksharaPrefix(s, |units[0]|, v)
      && IsGreedyParse(s[|units[0]|..], units[1..], v)
  }

  lemma {:induction false} ClusterTail(w: string, p: nat, m: nat, v: Variant)
    requires p <= m <= |w| && ClusterEnd(w, p) <= m
    ensures IsTail(w[p..m], v) == IsAfterCluster(w[ClusterEnd(w, p)..m], v)
    decreases |w| - p
  {
    var s := w[p..m];
    if p + 1 < |w| && w[p] == HALANT && IsConsonant(w[p + 1]) {
      assert s[2..] == w[p + 2..m];
      ClusterTail(w, p + 2, m, v);
    } else if |s| >= 2 && s[0] == HALANT && IsConsonant(s[1]) {
      assert false;
    }
  }

  lemma AfterClusterMarks(w: string, c: nat, m: nat, v: Variant)
    requires c <= m <= |w|
    requires VowelSignEnd(w, c) <= m
    ensures IsAfterCluster(w[c..m], v) == IsMarks(w[VowelSignEnd(w, c)..m], v)
  {
    var s := w[c..m];
    if c < |w| && IsVowelSign(w[c]) {
      assert s[1..] == w[c + 1..m];
    }
  }

  lemma {:induction false} DiacriticRun(w: string, q: nat)
    requires q <= |w|
    ensures forall k :: q <= k < DiacriticEnd(w, q) ==> IsDiacritic(w[k])
    ensures DiacriticEnd(w, q) < |w| ==> !IsDiacritic(w[DiacriticEnd(w, q)])
    decreases |w| - q
  {
    if q < |w| && IsDiacritic(w[q]) {
      DiacriticRun(w, q + 1);
    }
  }

  lemma MarksExactly(w: string, q: nat, m: nat, v: Variant)
    requires q <= m <= |w|
    ensures IsMarks(w[q..m], v) <==> (v == Python && m <= DiacriticEnd(w, q)) || m == q
  {
    DiacriticRun(w, q);
    var d := DiacriticEnd(w, q);
    if v == Python && m > d {
      assert w[q..m][d - q] == w[d];
    }
  }

  /** The scanner stops exactly at the end of the longest well-formed akshara starting at `i`. */
  lemma UnitEndIsLongest(w: string, i: nat, v: Variant)
    requires i < |w|
    ensures IsAkshara(w[i..UnitEnd(w, i, v)], v)
    ensures forall m :: UnitEnd(w, i, v) < m <= |w| ==> !IsAkshara(w[i..m], v)
  {
    var c := ClusterEnd(w, i + 1);
    var q := VowelSignEnd(w, c);
    var e := UnitEnd(w, i, v);
    forall m | q <= m <= |w|
      ensures IsAkshara(w[i..m], v) <==> IsMarks(w[q..m], v)
    {
      assert w[i..m][1..] == w[i + 1..m];
      ClusterTail(w, i + 1, m, v);
      AfterClusterMarks(w, c, m, v);
    }
    MarksExactly(w, q, e, v);
    forall m | e < m <= |w|
      ensures !IsAkshara(w[i..m], v)
    {
      MarksExactly(w, q, m, v);
    }
  }

  /** The segmenter's output is the greedy (longest-prefix) parse of its input. */
  lemma {:induction false} SplitFromIsGreedyParse(w: string, i: nat, v: Variant)
    requires i <= |w|
    ensures IsGreedyParse(w[i..], SplitFrom(w, i, v), v)
    decreases |w| - i
  {
    if i < |w| {
      var j := UnitEnd(w, i, v);
      var s := w[i..];
      UnitEndIsLongest(w, i, v);
      assert s[..j - i] == w[i..j];
      forall m | j - i < m <= |s|
        ensures !IsAkshara(s[..m], v)
      {
        assert s[..m] == w[i..i + m];
      }
      assert s[j - i..] == w[j..];
      SplitFromIsGreedyParse(w, j, v);
    }
  }

  lemma LongestPrefixUnique(s: string, n1: nat, n2: nat, v: Variant)
    requires IsLongestAksharaPrefix(s, n1, v) && IsLongestAksharaPrefix(s, n2, v)
    ensures n1 == n2
  {
  }

  /** At most one greedy parse exists. */
  lemma {:induction false} GreedyParseUnique(s: string, a: seq<string>, b: seq<string>, v: Variant)
    requires IsGreedyParse(s, a, v) && IsGreedyParse(s, b, v)
    ensures a == b
    decreases |a|
  {
    if a != [] && b != [] {
      LongestPrefixUnique(s, |a[0]|, |b[0]|, v);
      GreedyParseUnique(s[|a[0]|..], a[1..], b[1..], v);
      assert a == [a[0]] + a[1..];
      assert b == [b[0]] + b[1..];
    }
  }

  /**
   * `split_into_aksharas` returns exactly the units of the greedy parse: the
   * only sequence of aksharas, each the longest one available at its
   * position, that spells the word.
   */
  lemma SplitCharacterized(word: string, units: seq<string>, v: Variant)
    ensures IsGreedyParse(word, SplitFrom(word, 0, v), v)
    ensures IsGreedyParse(word, units, v) <==> units == SplitFrom(word, 0, v)
  {
    SplitFromIsGreedyParse(word, 0, v);
    assert word[0..] == word;
    if IsGreedyParse(word, units, v) {
      GreedyParseUnique(word, units, SplitFrom(word, 0, v), v);
    }
  }

  // ---------------------------------------------------------------------
  // Properties of single aksharas
  // ---------------------------------------------------------------------

  /**
   * Inside a tail, a halant is always immediately followed by a consonant;
   * a vowel sign occurs at most once and only diacritics (Python) or
   * nothing (JavaScript) come after it.
   */
  lemma {:induction false} TailShape(s: string, v: Variant)
    requires IsTail(s, v)
    ensures forall k :: 0 <= k < |s| && s[k] == HALANT ==> k + 1 < |s| && IsConsonant(s[k + 1])
    ensures forall k, l :: 0 <= k < l < |s| && IsVowelSign(s[k]) ==>
      !IsVowelSign(s[l]) && (v == Python && IsDiacritic(s[l]))
    ensures v == JavaScript ==> forall k :: 0 <= k < |s| ==> !IsDiacritic(s[k])
  {
    TailHalants(s, v);
    TailVowelSign(s, v);
    TailMarks(s, v);
  }

  lemma {:induction false} TailHalants(s: string, v: Variant)
    requires IsTail(s, v)
    ensures forall k :: 0 <= k < |s| && s[k] == HALANT ==> k + 1 < |s| && IsConsonant(s[k + 1])
    decreases |s|
  {
    if |s| >= 2 && s[0] == HALANT && IsConsonant(s[1]) {
      var rest := s[2..];
      TailHalants(rest, v);
      ClassesDisjoint(s[1]);
      forall k | 2 <= k < |s|
        ensures s[k] == rest[k - 2]
      {
      }
    } else if |s| >= 1 && IsVowelSign(s[0]) {
      var rest := s[1..];
      assert IsMarks(rest, v);
      forall k | 0 <= k < |s|
        ensures s[k] != HALANT
      {
        if k > 0 {
          assert s[k] == rest[k - 1];
        }
        ClassesDisjoint(s[k]);
      }
    } else if v == Python {
      assert IsMarks(s, v);
      forall k | 0 <= k < |s|
        ensures s[k] != HALANT
      {
        ClassesDisjoint(s[k]);
      }
    }
  }

  lemma {:induction false} TailVowelSign(s: string, v: Variant)
    requires IsTail(s, v)
    ensures forall k, l :: 0 <= k < l < |s| && IsVowelSign(s[k]) ==>
      !IsVowelSign(s[l]) && (v == Python && IsDiacritic(s[l]))
    decreases |s|
  {
    if |s| >= 2 && s[0] == HALANT && IsConsonant(s[1]) {
      var rest := s[2..];
      TailVowelSign(rest, v);
      ClassesDisjoint(s[1]);
      forall k, l | 0 <= k < l < |s| && IsVowelSign(s[k])
        ensures !IsVowelSign(s[l]) && v == Python && IsDiacritic(s[l])
      {
        ClassesDisjoint(s[k]);
        assert k >= 2;
        assert s[k] == rest[k - 2] && s[l] == rest[l - 2];
      }
    } else if |s| >= 1 && IsVowelSign(s[0]) {
      var rest := s[1..];
      assert IsMarks(rest, v);
      forall k, l | 0 <= k < l < |s| && IsVowelSign(s[k])
        ensures !IsVowelSign(s[l]) && v == Python && IsDiacritic(s[l])
      {
        assert s[l] == rest[l - 1];
        assert rest[l - 1] in rest;
        ClassesDisjoint(s[l]);
      }
    } else if v == Python {
      assert IsMarks(s, v);
      forall k | 0 <= k < |s|
        ensures !IsVowelSign(s[k])
      {
        ClassesDisjoint(s[k]);
      }
    }
  }

  lemma {:induction false} TailMarks(s: string, v: Variant)
    requires IsTail(s, v)
    ensures v == JavaScript ==> forall k :: 0 <= k < |s| ==> !IsDiacritic(s[k])
    decreases |s|
  {
    if v == JavaScript {
      if |s| >= 2 && s[0] == HALANT && IsConsonant(s[1]) {
        var rest := s[2..];
        TailMarks(rest, v);
        ClassesDisjoint(s[1]);
        forall k | 2 <= k < |s|
          ensures s[k] == rest[k - 2]
        {
        }
      } else if |s| >= 1 && IsVowelSign(s[0]) {
        assert s[1..] == [];
        ClassesDisjoint(s[0]);
      }
    }
  }

  /** In any akshara the segmenter emits, every halant after the base joins a following consonant. */
  lemma HalantAlwaysJoins(word: string, v: Variant, n: nat, k: nat)
    requires n < |SplitFrom(word, 0, v)|
    requires var u := SplitFrom(word, 0, v)[n]; 1 <= k < |u| && u[k] == HALANT
    ensures var u := SplitFrom(word, 0, v)[n]; k + 1 < |u| && IsConsonant(u[k + 1])
  {
    var u := SplitFrom(word, 0, v)[n];
    UnitOfSplitIsAkshara(word, v, n);
    TailShape(u[1..], v);
    assert u[1..][k - 1] == u[k];
  }

  /** Every emitted akshara carries at most one vowel sign after its base. */
  lemma OneVowelSign(word: string, v: Variant, n: nat, k: nat, l: nat)
    requires n < |SplitFrom(word, 0, v)|
    requires var u := SplitFrom(word, 0, v)[n]; 1 <= k < l < |u| && IsVowelSign(u[k])
    ensures var u := SplitFrom(word, 0, v)[n]; !IsVowelSign(u[l])
    ensures var u := SplitFrom(word, 0, v)[n]; v == Python && IsDiacritic(u[l])
  {
    var u := SplitFrom(word, 0, v)[n];
    UnitOfSplitIsAkshara(word, v, n);
    TailShape(u[1..], v);
    assert u[1..][k - 1] == u[k] && u[1..][l - 1] == u[l];
  }

  /** The JavaScript copy never attaches anusvara or visarga: they only ever start an akshara. */
  lemma JsDiacriticsStandAlone(word: string, n: nat, k: nat)
    requires n < |SplitFrom(word, 0, JavaScript)|
    requires 1 <= k < |SplitFrom(word, 0, JavaScript)[n]|
    ensures !IsDiacritic(SplitFrom(word, 0, JavaScript)[n][k])
  {
    var u := SplitFrom(word, 0, JavaScript)[n];
    UnitOfSplitIsAkshara(word, JavaScript, n);
    TailShape(u[1..], JavaScript);
    assert u[1..][k - 1] == u[k];
  }

  lemma {:induction false} GreedyParseUnits(s: string, units: seq<string>, v: Variant, n: nat)
    requires IsGreedyParse(s, units, v)
    requires n < |units|
    ensures IsAkshara(units[n], v)
    decreases n
  {
    if n > 0 {
      GreedyParseUnits(s[|units[0]|..], units[1..], v, n - 1);
    }
  }

  lemma UnitOfSplitIsAkshara(word: string, v: Variant, n: nat)
    requires n < |SplitFrom(word, 0, v)|
    ensures IsAkshara(SplitFrom(word, 0, v)[n], v)
  {
    SplitFromIsGreedyParse(word, 0, v);
    assert word[0..] == word;
    GreedyParseUnits(word, SplitFrom(word, 0, v), v, n);
  }

  /** A well-formed akshara, segmented on its own, comes back whole. */
  lemma AksharaSplitsToItself(u: string, v: Variant)
    requires IsAkshara(u, v)
    ensures SplitFrom(u, 0, v) == [u]
  {
    UnitEndIsLongest(u, 0, v);
    assert u[0..|u|] == u;
    var e := UnitEnd(u, 0, v);
    assert e == |u|;
    assert SplitFrom(u, e, v) == [];
  }

  /** Re-segmenting any emitted akshara on its own gives back exactly that akshara. */
  lemma ResplitUnit(word: string, v: Variant, n: nat)
    requires n < |SplitFrom(word, 0, v)|
    ensures SplitFrom(SplitFrom(word, 0, v)[n], 0, v) == [SplitFrom(word, 0, v)[n]]
  {
    UnitOfSplitIsAkshara(word, v, n);
    AksharaSplitsToItself(SplitFrom(word, 0, v)[n], v);
  }

  // ---------------------------------------------------------------------
  // The two copies compared
  // ---------------------------------------------------------------------

  lemma {:induction false} NoDiacriticRun(w: string, q: nat)
    requires q <= |w|
    requires forall k :: 0 <= k < |w| ==> !IsDiacritic(w[k])
    ensures DiacriticEnd(w, q) == q
  {
  }

  /** On text without anusvara or visarga, the JavaScript copy agrees with the Python copy. */
  lemma {:induction false} CopiesAgreeWithoutDiacritics(w: string, i: nat)
    requires i <= |w|
    requires forall k :: 0 <= k < |w| ==> !IsDiacritic(w[k])
    ensures SplitFrom(w, i, JavaScript) == SplitFrom(w, i, Python)
    decreases |w| - i
  {
    if i < |w| {
      var afterVowel := VowelSignEnd(w, ClusterEnd(w, i + 1));
      NoDiacriticRun(w, afterVowel);
      CopiesAgreeWithoutDiacritics(w, UnitEnd(w, i, JavaScript));
    }
  }

  lemma SplitCopiesAgree(word: string)
    requires forall k :: 0 <= k < |word| ==> word[k] != ANUSVARA && word[k] != VISARGA
    ensures SplitIntoAksharasJs(word) == SplitIntoAksharas(word)
  {
    CopiesAgreeWithoutDiacritics(word, 0);
  }

  // ---------------------------------------------------------------------
  // Worked examples
  // ---------------------------------------------------------------------

  /** A conjunct (ನ + halant + ನ) stays in one akshara: "ಕನ್ನಡ" gives ["ಕ","ನ್ನ","ಡ"]. */
  lemma ExampleConjunct()
    ensures SplitIntoAksharas("ಕನ್ನಡ") == ["ಕ", "ನ್ನ", "ಡ"]
  {
    var w := "ಕನ್ನಡ";
    assert ClusterEnd(w, 4) == 4 && ClusterEnd(w, 2) == 4 && ClusterEnd(w, 1) == 1;
    assert UnitEnd(w, 0, Python) == 1;
    assert UnitEnd(w, 1, Python) == 4;
    assert UnitEnd(w, 4, Python) == 5;
    assert SplitFrom(w, 5, Python) == [];
    assert SplitFrom(w, 4, Python) == [w[4..5]];
    assert SplitFrom(w, 1, Python) == [w[1..4], w[4..5]];
    assert SplitFrom(w, 0, Python) == [w[0..1], w[1..4], w[4..5]];
    assert w[0..1] == "ಕ" && w[1..4] == "ನ್ನ" && w[4..5] == "ಡ";
  }

  /** A vowel sign joins its consonant: "ಕಾ" gives one akshara. */
  lemma ExampleVowelSign()
    ensures SplitIntoAksharas("ಕಾ") == ["ಕಾ"]
    ensures SplitIntoAksharasJs("ಕಾ") == ["ಕಾ"]
  {
    var w := "ಕಾ";
    assert ClusterEnd(w, 1) == 1 && VowelSignEnd(w, 1) == 2 && DiacriticEnd(w, 2) == 2;
    assert w[0..2] == w;
    assert SplitFrom(w, 0, Python) == [w];
    assert SplitFrom(w, 0, JavaScript) == [w];
  }

  /** A halant with no consonant after it starts an akshara of its own: "ಕ್" gives ["ಕ","್"]. */
  lemma ExampleLoneHalant()
    ensures SplitIntoAksharas("ಕ್") == ["ಕ", "್"]
  {
    var w := "ಕ್";
    assert ClusterEnd(w, 1) == 1 && VowelSignEnd(w, 1) == 1 && DiacriticEnd(w, 1) == 1;
    assert ClusterEnd(w, 2) == 2 && VowelSignEnd(w, 2) == 2 && DiacriticEnd(w, 2) == 2;
    assert SplitFrom(w, 1, Python) == [w[1..2]];
    assert SplitFrom(w, 0, Python) == [w[0..1], w[1..2]];
    assert w[0..1] == "ಕ" && w[1..2] == "್";
  }

  /** Only the Python copy attaches the anusvara: "ಕಂ" gives ["ಕಂ"] there and ["ಕ","ಂ"] in JavaScript. */
  lemma ExampleAnusvara()
    ensures SplitIntoAksharas("ಕಂ") == ["ಕಂ"]
    ensures SplitIntoAksharasJs("ಕಂ") == ["ಕ", "ಂ"]
  {
    var w := "ಕಂ";
    assert ClusterEnd(w, 1) == 1 && VowelSignEnd(w, 1) == 1;
    assert DiacriticEnd(w, 2) == 2 && DiacriticEnd(w, 1) == 2;
    assert w[0..2] == w;
    assert SplitFrom(w, 0, Python) == [w];
    assert ClusterEnd(w, 2) == 2 && VowelSignEnd(w, 2) == 2;
    assert SplitFrom(w, 1, JavaScript) == [w[1..2]];
    assert SplitFrom(w, 0, JavaScript) == [w[0..1], w[1..2]];
    assert w[0..1] == "ಕ" && w[1..2] == "ಂ";
  }

  /**
   * Segmentation does not distribute over concatenation: "ಕ" and "ಾ"
   * split apart give two aksharas, "ಕಾ" gives one.
   */
  lemma NotCompositional()
    ensures SplitIntoAksharas("ಕ") + SplitIntoAksharas("ಾ") != SplitIntoAksharas("ಕ" + "ಾ")
  {
    assert "ಕ" + "ಾ" == "ಕಾ";
    ExampleVowelSign();
    assert SplitFrom("ಕ", 1, Python) == [];
    assert SplitFrom("ಾ", 1, Python) == [];
  }
}

=== FILE: alignment.dfy ===
/**
 * Positional alignment of a target and a spoken phoneme (or syllable)
 * sequence, as the analysis service computes it: a two-pointer walk that
 * labels every position Correct, Substitution, Omission or Addition, a
 * tally of the labels, and the list of substituted pairs.
 *
 * Elements are strings: a list input supplies them directly, and a Python
 * string input supplies its one-character strings.
 */
module Alignment {

  datatype Kind = Correct | Substitution | Omission | Addition

  /** One alignment record `{"target", "spoken", "type"}`; a missing side is "". */
  datatype Entry = Entry(target: string, spoken: string, kind: Kind)

  /** The summary `{"S", "O", "D", "A", "Correct"}`. */
  datatype Summary = Summary(s: nat, o: nat, d: nat, a: nat, correct: nat)

  /** The result `{"alignment", "summary"}`. */
  datatype Aligned = Aligned(alignment: seq<Entry>, summary: Summary)

  /** A substituted pair `{"target", "spoken"}`. */
  datatype SubPair = SubPair(target: string, spoken: string)

  function Max(a: nat, b: nat): nat { if a >= b then a else b }
  function Min(a: nat, b: nat): nat { if a <= b then a else b }

  /** `x - y`, or 0 when that is negative. */
  function Excess(x: nat, y: nat): nat { if x > y then x - y else 0 }

  // ---------------------------------------------------------------------
  // Reference: what each position of the alignment holds
  // ---------------------------------------------------------------------

  /** The entry at position `k`: a pair while both sides last, then the leftover side alone. */
  function EntryAt(t: seq<string>, s: seq<string>, k: nat): Entry
    requires k < Max(|t|, |s|)
  {
    if k < |t| && k < |s| then Entry(t[k], s[k], if t[k] == s[k] then Correct else Substitution)
    else if k < |t| then Entry(t[k], "", Omission)
    else Entry("", s[k], Addition)
  }

  function Positional(t: seq<string>, s: seq<string>): seq<Entry>
  {
    seq(Max(|t|, |s|), k requires 0 <= k < Max(|t|, |s|) => EntryAt(t, s, k))
  }

  /** Number of positions below `n` where both sides hold the same element. */
  function Matches(t: seq<string>, s: seq<string>, n: nat): (r: nat)
    requires n <= |t| && n <= |s|
    ensures r <= n
  {
    if n == 0 then 0 else Matches(t, s, n - 1) + (if t[n - 1] == s[n - 1] then 1 else 0)
  }

  /** The summary the alignment of `t` against `s` must have, in closed form. */
  function ExpectedSummary(t: seq<string>, s: seq<string>): Summary
  {
    var m := Min(|t|, |s|);
    var c := Matches(t, s, m);
    Summary(m - c, Excess(|t|, |s|), 0, Excess(|s|, |t|), c)
  }

  function CountKind(al: seq<Entry>, kind: Kind): nat
  {
    if al == [] then 0
    else CountKind(al[..|al| - 1], kind) + (if al[|al| - 1].kind == kind then 1 else 0)
  }

  function KindCounts(al: seq<Entry>): Summary
  {
    Summary(CountKind(al, Substitution), CountKind(al, Omission), 0, CountKind(al, Addition), CountKind(al, Correct))
  }

  /** The last entry of a prefix of the alignment, and what comes before it. */
  lemma PositionalPrefixStep(t: seq<string>, s: seq<string>, n: nat)
    requires 0 < n <= Max(|t|, |s|)
    ensures Positional(t, s)[..n][..n - 1] == Positional(t, s)[..n - 1]
    ensures Positional(t, s)[..n][n - 1] == EntryAt(t, s, n - 1)
  {
  }

  lemma {:induction false} PrefixOmissions(t: seq<string>, s: seq<string>, n: nat)
    requires n <= Max(|t|, |s|)
    ensures CountKind(Positional(t, s)[..n], Omission) == Excess(Min(n, |t|), |s|)
  {
    if n > 0 {
      PrefixOmissions(t, s, n - 1);
      PositionalPrefixStep(t, s, n);
    }
  }

  lemma {:induction false} PrefixAdditions(t: seq<string>, s: seq<string>, n: nat)
    requires n <= Max(|t|, |s|)
    ensures CountKind(Positional(t, s)[..n], Addition) == Excess(Min(n, |s|), |t|)
  {
    if n > 0 {
      PrefixAdditions(t, s, n - 1);
      PositionalPrefixStep(t, s, n);
    }
  }

  lemma {:induction false} PrefixPairs(t: seq<string>, s: seq<string>, n: nat)
    requires n <= Max(|t|, |s|)
    ensures var m := Min(n, Min(|t|, |s|));
      && CountKind(Positional(t, s)[..n], Correct) == Matches(t, s, m)
      && CountKind(Positional(t, s)[..n], Substitution) == m - Matches(t, s, m)
  {
    if n > 0 {
      PrefixPairs(t, s, n - 1);
      PositionalPrefixStep(t, s, n);
    }
  }

  lemma PositionalPrefixCounts(t: seq<string>, s: seq<string>, n: nat)
    requires n <= Max(|t|, |s|)
    ensures var p := Positional(t, s)[..n];
      var m := Min(n, Min(|t|, |s|));
      && CountKind(p, Omission) == Excess(Min(n, |t|), |s|)
      && CountKind(p, Addition) == Excess(Min(n, |s|), |t|)
      && CountKind(p, Correct) == Matches(t, s, m)
      && CountKind(p, Substitution) == m - Matches(t, s, m)
  {
    PrefixOmissions(t, s, n);
    PrefixAdditions(t, s, n);
    PrefixPairs(t, s, n);
  }

  lemma PositionalCounts(t: seq<string>, s: seq<string>)
    ensures KindCounts(Positional(t, s)) == ExpectedSummary(t, s)
  {
    var p := Positional(t, s);
    PositionalPrefixCounts(t, s, |p|);
    assert p[..|p|] == p;
  }

  // ---------------------------------------------------------------------
  // align_phonemes_string
  // ---------------------------------------------------------------------

  /**
   * `align_phonemes_string`: the two-pointer walk, then a tally that checks
   * Substitution, Omission, Addition, Correct in that order.
   */
  method AlignPhonemesString(t: seq<string>, s: seq<string>) returns (res: Aligned)
    ensures res.alignment == Positional(t, s)
    ensures res.summary == ExpectedSummary(t, s)
  {
    var alignment: seq<Entry> := [];
    var i, j := 0, 0;
    while i < |t| || j < |s|
      invariant i <= |t| && j <= |s|
      invariant i == j || (j == |s| && i > j) || (i == |t| && j > i)
      invariant |alignment| == Max(i, j)
      invariant forall k :: 0 <= k < |alignment| ==> alignment[k] == EntryAt(t, s, k)
      decreases |t| - i + |s| - j
    {
      if i < |t| && j < |s| {
        if t[i] == s[j] {
          alignment := alignment + [Entry(t[i], s[j], Correct)];
        } else {
          alignment := alignment + [Entry(t[i], s[j], Substitution)];
        }
        i, j := i + 1, j + 1;
      } else if i < |t| {
        alignment := alignment + [Entry(t[i], "", Omission)];
        i := i + 1;
      } else if j < |s| {
        alignment := alignment + [Entry("", s[j], Addition)];
        j := j + 1;
      }
    }
    assert alignment == Positional(t, s);

    var summary := Summary(0, 0, 0, 0, 0);
    for k := 0 to |alignment|
      invariant summary == KindCounts(alignment[..k])
    {
      assert alignment[..k + 1][..k] == alignment[..k];
      var kind := alignment[k].kind;
      if kind == Substitution {
        summary := summary.(s := summary.s + 1);
      } else if kind == Omission {
        summary := summary.(o := summary.o + 1);
      } else if kind == Addition {
        summary := summary.(a := summary.a + 1);
      } else if kind == Correct {
        summary := summary.(correct := summary.correct + 1);
      }
    }
    assert alignment[..|alignment|] == alignment;
    PositionalCounts(t, s);
    res := Aligned(alignment, summary);
  }

  // ---------------------------------------------------------------------
  // align_phonemes_list
  // ---------------------------------------------------------------------

  /** The two-pointer walk of `align_phonemes_list` from pointers `i` (target) and `j` (spoken). */
  function Walk(t: seq<string>, s: seq<string>, i: nat, j: nat): seq<Entry>
    requires i <= |t| && j <= |s|
    decreases |t| - i + |s| - j
  {
    if i < |t| && j < |s| then
      [Entry(t[i], s[j], if t[i] == s[j] then Correct else Substitution)] + Walk(t, s, i + 1, j + 1)
    else if i < |t| then [Entry(t[i], "", Omission)] + Walk(t, s, i + 1, j)
    else if j < |s| then [Entry("", s[j], Addition)] + Walk(t, s, i, j + 1)
    else []
  }

  /** The tally of `align_phonemes_list`, checking Correct, Substitution, Omission, Addition in that order. */
  function TallyList(al: seq<Entry>): Summary
  {
    if al == [] then Summary(0, 0, 0, 0, 0)
    else
      var acc := TallyList(al[..|al| - 1]);
      var kind := al[|al| - 1].kind;
      if kind == Correct then acc.(correct := acc.correct + 1)
      else if kind == Substitution then acc.(s := acc.s + 1)
      else if kind == Omission then acc.(o := acc.o + 1)
      else acc.(a := acc.a + 1)
  }

  /** `align_phonemes_list`. */
  function AlignPhonemesList(t: seq<string>, s: seq<string>): Aligned
  {
    var al := Walk(t, s, 0, 0);
    Aligned(al, TallyList(al))
  }

  lemma {:induction false} WalkIsPositional(t: seq<string>, s: seq<string>, i: nat, j: nat)
    requires i <= |t| && j <= |s|
    requires i == j || (j == |s| && i > j) || (i == |t| && j > i)
    ensures |Walk(t, s, i, j)| == Max(|t|, |s|) - Max(i, j)
    ensures forall k :: 0 <= k < |Walk(t, s, i, j)| ==> Walk(t, s, i, j)[k] == EntryAt(t, s, Max(i, j) + k)
    decreases |t| - i + |s| - j
  {
    if i < |t| && j < |s| {
      WalkIsPositional(t, s, i + 1, j + 1);
    } else if i < |t| {
      WalkIsPositional(t, s, i + 1, j);
    } else if j < |s| {
      WalkIsPositional(t, s, i, j + 1);
    }
  }

  lemma {:induction false} TallyListCounts(al: seq<Entry>)
    ensures TallyList(al) == KindCounts(al)
  {
    if al != [] {
      TallyListCounts(al[..|al| - 1]);
    }
  }

  /** `align_phonemes_list` returns exactly what `align_phonemes_string` returns on the same inputs. */
  lemma AlignListAgreesWithString(t: seq<string>, s: seq<string>)
    ensures AlignPhonemesList(t, s) == Aligned(Positional(t, s), ExpectedSummary(t, s))
  {
    WalkIsPositional(t, s, 0, 0);
    assert Walk(t, s, 0, 0) == Positional(t, s);
    TallyListCounts(Positional(t, s));
    PositionalCounts(t, s);
  }

  // ---------------------------------------------------------------------
  // Consequences for callers
  // ---------------------------------------------------------------------

  /**
   * The alignment is as long as the longer input; its labels add up to
   * that length; omissions and additions are the length difference, and
   * the two never occur together; distortion is never counted here.
   */
  lemma SummaryShape(t: seq<string>, s: seq<string>)
    ensures var sum := ExpectedSummary(t, s);
      && |Positional(t, s)| == Max(|t|, |s|)
      && sum.correct + sum.s + sum.o + sum.a == Max(|t|, |s|)
      && sum.o == (if |t| > |s| then |t| - |s| else 0)
      && sum.a == (if |s| > |t| then |s| - |t| else 0)
      && (sum.o == 0 || sum.a == 0)
      && sum.d == 0
  {
  }

  lemma {:induction false} MatchesBound(t: seq<string>, s: seq<string>, n: nat)
    requires n <= |t| && n <= |s|
    ensures Matches(t, s, n) == n <==> forall k :: 0 <= k < n ==> t[k] == s[k]
  {
    if n > 0 {
      MatchesBound(t, s, n - 1);
    }
  }

  /** Positions below the shorter length are never Omission or Addition; later ones never Correct or Substitution. */
  lemma EntryKinds(t: seq<string>, s: seq<string>, k: nat)
    requires k < Max(|t|, |s|)
    ensures var e := Positional(t, s)[k];
      && (k < |t| && k < |s| ==> e.target == t[k] && e.spoken == s[k] && (e.kind == Correct <==> t[k] == s[k]))
      && (k < |t| && k < |s| ==> e.kind == Correct || e.kind == Substitution)
      && (k >= |s| ==> e == Entry(t[k], "", Omission))
      && (k >= |t| ==> e == Entry("", s[k], Addition))
  {
  }

  /** Identical inputs align as all Correct, with nothing else counted. */
  lemma IdenticalInputs(t: seq<string>)
    ensures forall k :: 0 <= k < |Positional(t, t)| ==> Positional(t, t)[k].kind == Correct
    ensures ExpectedSummary(t, t) == Summary(0, 0, 0, 0, |t|)
  {
    MatchesBound(t, t, |t|);
  }

  // ---------------------------------------------------------------------
  // extract_substitutions
  // ---------------------------------------------------------------------

  /** The `{target, spoken}` pairs at the positions below `n` where the two sides differ, in position order. */
  function DiffPairs(t: seq<string>, s: seq<string>, n: nat): seq<SubPair>
    requires n <= |t| && n <= |s|
  {
    if n == 0 then []
    else DiffPairs(t, s, n - 1) + (if t[n - 1] != s[n - 1] then [SubPair(t[n - 1], s[n - 1])] else [])
  }

  /** The pairs carried by the Substitution entries of an alignment, in order. */
  function SubstitutionPairs(al: seq<Entry>): seq<SubPair>
  {
    if al == [] then []
    else
      var e := al[|al| - 1];
      SubstitutionPairs(al[..|al| - 1]) + (if e.kind == Substitution then [SubPair(e.target, e.spoken)] else [])
  }

  /** `extract_substitutions`: walk the zip of both lists and keep the differing pairs. */
  method ExtractSubstitutions(t: seq<string>, s: seq<string>) returns (subs: seq<SubPair>)
    ensures subs == DiffPairs(t, s, Min(|t|, |s|))
    ensures |subs| == ExpectedSummary(t, s).s
    ensures forall k :: 0 <= k < |subs| ==> subs[k].target != subs[k].spoken
  {
    subs := [];
    for k := 0 to Min(|t|, |s|)
      invariant subs == DiffPairs(t, s, k)
    {
      if t[k] != s[k] {
        subs := subs + [SubPair(t[k], s[k])];
      }
    }
    DiffPairsShape(t, s, Min(|t|, |s|));
  }

  lemma {:induction false} DiffPairsShape(t: seq<string>, s: seq<string>, n: nat)
    requires n <= |t| && n <= |s|
    ensures |DiffPairs(t, s, n)| == n - Matches(t, s, n)
    ensures forall k :: 0 <= k < |DiffPairs(t, s, n)| ==> DiffPairs(t, s, n)[k].target != DiffPairs(t, s, n)[k].spoken
  {
    if n > 0 {
      DiffPairsShape(t, s, n - 1);
      MatchesBound(t, s, n - 1);
    }
  }

  lemma {:induction false} SubstitutionPairsPrefix(t: seq<string>, s: seq<string>, n: nat)
    requires n <= Max(|t|, |s|)
    ensures SubstitutionPairs(Positional(t, s)[..n]) == DiffPairs(t, s, Min(n, Min(|t|, |s|)))
  {
    if n > 0 {
      SubstitutionPairsPrefix(t, s, n - 1);
      PositionalPrefixStep(t, s, n);
    }
  }

  /** The substitutions extracted from the two lists are exactly the Substitution entries of their alignment. */
  lemma {:induction false} ExtractMatchesAlignment(t: seq<string>, s: seq<string>)
    ensures DiffPairs(t, s, Min(|t|, |s|)) == SubstitutionPairs(Positional(t, s))
  {
    var p := Positional(t, s);
    SubstitutionPairsPrefix(t, s, |p|);
    assert p[..|p|] == p;
  }
}

=== FILE: js_values.dfy ===
/**
 * JavaScript/JSON values as the backend handlers and the report page see
 * them: request bodies, stored child records and SODA result items.
 * A missing property (`undefined`) is `None`; a present one is `Some(v)`.
 */
module Js {

  datatype Option<+T> = None | Some(value: T)

  /** A JSON value. Numbers are exact reals (NaN and infinities are not modelled). */
  datatype Json =
    | JNull
    | JBool(b: bool)
    | JNum(n: real)
    | JStr(s: string)
    | JArr(items: seq<Json>)
    | JObj(fields: map<string, Json>)

  /** A plain object: property name to value; absent names read as `undefined`. */
  type Object = map<string, Json>

  /** JavaScript truthiness: null, false, 0 and "" are falsy; arrays and objects are truthy. */
  predicate Truthy(v: Json) {
    match v
    case JNull => false
    case JBool(b) => b
    case JNum(n) => n != 0.0
    case JStr(s) => s != []
    case JArr(_) => true
    case JObj(_) => true
  }

  /** Truthiness of a possibly-missing property: `undefined` is falsy. */
  predicate TruthyOpt(v: Option<Json>) {
    v.Some? && Truthy(v.value)
  }

  /** `o.key` on a plain object. */
  function Prop(o: Object, key: string): (r: Option<Json>)
    ensures r.Some? <==> key in o
    ensures key in o ==> r.value == o[key]
  {
    if key in o then Some(o[key]) else None
  }

  /**
   * `v?.key`: `undefined` for null, a property of an object, and
   * `undefined` on strings, numbers, booleans and arrays (none of the
   * property names used by the modelled rules exist on those).
   */
  function Member(v: Json, key: string): (r: Option<Json>)
    ensures r.Some? ==> v.JObj? && key in v.fields && r.value == v.fields[key]
    ensures v.JObj? && key in v.fields ==> r.Some?
  {
    match v
    case JObj(m) => Prop(m, key)
    case _ => None
  }

  /** `v?.key` where `v` may itself be `undefined`: optional chaining short-circuits. */
  function MemberOpt(v: Option<Json>, key: string): (r: Option<Json>)
    ensures v.None? ==> r.None?
    ensures v.Some? ==> r == Member(v.value, key)
  {
    if v.None? then None else Member(v.value, key)
  }

  /** `a || b` where `a` may be `undefined`. */
  function Or(a: Option<Json>, b: Json): (r: Json)
    ensures TruthyOpt(a) ==> r == a.value
    ensures !TruthyOpt(a) ==> r == b
  {
    if TruthyOpt(a) then a.value else b
  }

  /** `a ?? b`: only `undefined` and `null` fall back to `b`. */
  function Nullish(a: Option<Json>, b: Json): (r: Json)
    ensures a.Some? && a.value != JNull ==> r == a.value
    ensures a.None? || a.value == JNull ==> r == b
  {
    if a.Some? && a.value != JNull then a.value else b
  }

  /** `v === JStr(s)` for a possibly-missing value: strict equality with a string literal. */
  predicate IsString(v: Option<Json>, s: string) {
    v == Some(JStr(s))
  }
}

=== FILE: letter_identification.dfy ===
/**
 * Syllable-level error identification used for practice suggestions:
 * which target syllables were omitted, which spoken ones were added, and
 * which positions were substituted (or distorted).
 */
module LetterIdentification {
  import opened Seqs
  import opened Alignment

  /**
   * `identify_omission`: the target syllables that occur nowhere in the
   * spoken list, in target order, duplicates kept.
   */
  function IdentifyOmission(target: seq<string>, spoken: seq<string>): (deleted: seq<string>)
    ensures IsSubsequence(deleted, target)
    ensures forall x :: multiset(deleted)[x] == if x in spoken then 0 else multiset(target)[x]
    ensures deleted == [] <==> forall k :: 0 <= k < |target| ==> target[k] in spoken
  {
    FilterEmptyIff(target, x => x !in spoken);
    Filter(target, x => x !in spoken)
  }

  /**
   * `identify_addition`: the spoken syllables that occur nowhere in the
   * target list, in spoken order, duplicates kept.
   */
  function IdentifyAddition(target: seq<string>, spoken: seq<string>): (added: seq<string>)
    ensures IsSubsequence(added, spoken)
    ensures forall x :: multiset(added)[x] == if x in target then 0 else multiset(spoken)[x]
    ensures added == [] <==> forall k :: 0 <= k < |spoken| ==> spoken[k] in target
  {
    FilterEmptyIff(spoken, x => x !in target);
    Filter(spoken, x => x !in target)
  }

  /**
   * The index loop of `identify_substitution` from index `i`, on lists of
   * equal length: the only input on which the loop as written completes.
   */
  function SubstitutionsFrom(target: seq<string>, spoken: seq<string>, i: nat): seq<SubPair>
    requires |target| == |spoken| && i <= |target|
    decreases |target| - i
  {
    if i == |target| then []
    else
      (if target[i] != spoken[i] then [SubPair(target[i], spoken[i])] else [])
      + SubstitutionsFrom(target, spoken, i + 1)
  }

  lemma {:induction false} SubstitutionsFromSplit(target: seq<string>, spoken: seq<string>, i: nat)
    requires |target| == |spoken| && i <= |target|
    ensures DiffPairs(target, spoken, i) + SubstitutionsFrom(target, spoken, i) == DiffPairs(target, spoken, |target|)
    decreases |target| - i
  {
    if i < |target| {
      SubstitutionsFromSplit(target, spoken, i + 1);
    }
  }

  /** What a Python call returns, or that it raised IndexError. */
  datatype Outcome = IndexError | Pairs(subs: seq<SubPair>)

  /**
   * `identify_substitution` as written: every iteration reads
   * `target_syllable[i]` and `spoken_syllable[i]` before the bounds checks,
   * so on lists of different lengths the call raises IndexError and the
   * branches for a longer target or a longer spoken list never run.
   */
  function IdentifySubstitutionAsWritten(target: seq<string>, spoken: seq<string>): (r: Outcome)
    ensures r == IndexError <==> |target| != |spoken|
    ensures r.Pairs? ==> r.subs == DiffPairs(target, spoken, |target|)
    ensures r.Pairs? ==> r.subs == SubstitutionPairs(Positional(target, spoken))
    ensures r.Pairs? ==> (r.subs == [] <==> target == spoken)
  {
    if |target| != |spoken| then IndexError
    else
      SubstitutionsFromSplit(target, spoken, 0);
      ExtractMatchesAlignment(target, spoken);
      DiffPairsShape(target, spoken, |target|);
      MatchesBound(target, spoken, |target|);
      Pairs(SubstitutionsFrom(target, spoken, 0))
  }

  /** A target one syllable longer than the speech makes the call raise. */
  lemma SubstitutionRaisesOnShortSpeech()
    ensures IdentifySubstitutionAsWritten(["ಕ", "ನ"], ["ಕ"]) == IndexError
    ensures IdentifyDistortion(["ಕ", "ನ"], ["ಕ"]) == IndexError
    ensures IdentifySubstitution(["ಕ", "ನ"], ["ಕ"]) == [SubPair("ನ", "")]
  {
    var t, s := ["ಕ", "ನ"], ["ಕ"];
    assert PaddedPairs(t, s, 1) == [];
    assert PaddedPairs(t, s, 2) == [SubPair("ನ", "")];
  }

  /** The pair an entry contributes: none for Correct, its two sides otherwise. */
  function PairOf(e: Entry): seq<SubPair> {
    if e.kind != Correct then [SubPair(e.target, e.spoken)] else []
  }

  /** The `{target, spoken}` pair of every entry of an alignment that is not Correct, in order. */
  function ErrorPairs(al: seq<Entry>): seq<SubPair>
  {
    if al == [] then [] else ErrorPairs(al[..|al| - 1]) + PairOf(al[|al| - 1])
  }

  lemma {:induction false} ErrorPairsLength(al: seq<Entry>)
    ensures |ErrorPairs(al)| == |al| - CountKind(al, Correct)
  {
    if al != [] {
      ErrorPairsLength(al[..|al| - 1]);
    }
  }

  /**
   * The loop as its comments describe it, over the positions below `n`: a
   * differing pair while both lists last, then `(target, "")` or
   * `("", spoken)` for every leftover syllable.
   */
  function PaddedPairs(target: seq<string>, spoken: seq<string>, n: nat): seq<SubPair>
    requires n <= Max(|target|, |spoken|)
  {
    if n == 0 then []
    else
      var k := n - 1;
      var here :=
        if k < |target| && k < |spoken| then
          (if target[k] != spoken[k] then [SubPair(target[k], spoken[k])] else [])
        else if k < |target| then [SubPair(target[k], "")]
        else [SubPair("", spoken[k])];
      PaddedPairs(target, spoken, k) + here
  }

  lemma {:induction false} PaddedPairsPrefix(target: seq<string>, spoken: seq<string>, n: nat)
    requires n <= Max(|target|, |spoken|)
    ensures ErrorPairs(Positional(target, spoken)[..n]) == PaddedPairs(target, spoken, n)
  {
    if n > 0 {
      PaddedPairsPrefix(target, spoken, n - 1);
      PositionalPrefixStep(target, spoken, n);
    }
  }

  lemma {:induction false} PaddedPairsEqualLengths(target: seq<string>, spoken: seq<string>, n: nat)
    requires n <= Max(|target|, |spoken|)
    ensures |target| == |spoken| ==> PaddedPairs(target, spoken, n) == DiffPairs(target, spoken, n)
  {
    if n > 0 {
      PaddedPairsEqualLengths(target, spoken, n - 1);
    }
  }

  /**
   * `identify_substitution` as intended: one pair for every position of
   * the positional alignment that is not Correct, with "" for the missing
   * side, so there are as many pairs as substitutions, omissions and
   * additions together. On lists of equal length it returns what the code
   * as written returns.
   */
  function IdentifySubstitution(target: seq<string>, spoken: seq<string>): (subs: seq<SubPair>)
    ensures subs == ErrorPairs(Positional(target, spoken))
    ensures var sum := ExpectedSummary(target, spoken); |subs| == sum.s + sum.o + sum.a
    ensures subs == [] <==> target == spoken
    ensures |target| == |spoken| ==> IdentifySubstitutionAsWritten(target, spoken) == Pairs(subs)
  {
    var p := Positional(target, spoken);
    PaddedPairsPrefix(target, spoken, |p|);
    assert p[..|p|] == p;
    ErrorPairsLength(p);
    PositionalCounts(target, spoken);
    SummaryShape(target, spoken);
    MatchesBound(target, spoken, Min(|target|, |spoken|));
    PaddedPairsEqualLengths(target, spoken, |p|);
    PaddedPairs(target, spoken, |p|)
  }

  /**
   * `identify_distortion` delegates to `identify_substitution` as written:
   * it raises IndexError on lists of different lengths, and otherwise
   * reports one pair per non-Correct alignment position, which is what the
   * corrected substitution reports.
   */
  function IdentifyDistortion(target: seq<string>, spoken: seq<string>): (r: Outcome)
    ensures r == IndexError <==> |target| != |spoken|
    ensures r.Pairs? ==> r.subs == ErrorPairs(Positional(target, spoken))
    ensures r.Pairs? ==> r.subs == IdentifySubstitution(target, spoken)
    ensures r.Pairs? ==> (r.subs == [] <==> target == spoken)
  {
    var corrected := IdentifySubstitution(target, spoken);
    assert |target| == |spoken| ==> IdentifySubstitutionAsWritten(target, spoken) == Pairs(corrected);
    IdentifySubstitutionAsWritten(target, spoken)
  }

  /**
   * Omission here is set-like, not positional: a target syllable that the
   * child said somewhere else is not reported, even when the spoken list is
   * shorter and the alignment records an Omission.
   */
  lemma OmissionIsNotPositional()
    ensures IdentifyOmission(["ಕ", "ಕ"], ["ಕ"]) == []
    ensures Positional(["ಕ", "ಕ"], ["ಕ"])[1].kind == Omission
  {
  }
}

=== FILE: report_details.dfy ===
/**
 * The pure part of the report page's `buildReportDetails`: which results
 * count as correct or as errors, the correct and wrong word lists, the
 * practice syllables, their age filter, and the four-tier suggestion.
 * The two conversion requests to the phoneme service are parameters:
 * `toWord` turns a `target_syllable` list into a Kannada word and
 * `toKannada` turns one practice syllable into Kannada (both yield "" on
 * failure, as the page's helper does).
 */
module ReportDetails {
  import opened Js
  import opened Seqs
  import opened Soda
  import ServerRules

  // ---------------------------------------------------------------------
  // The result list and the two filters
  // ---------------------------------------------------------------------

  /**
   * The result list the page reads from a report: the `sodaResults` array,
   * or an empty list when the field is missing or falsy. `None` is a truthy
   * value that is not an array, on which the following filter call throws.
   */
  function ResultsOf(report: Object): (r: Option<seq<Json>>)
    ensures Prop(report, "sodaResults").Some? && report["sodaResults"].JArr? ==> r == Some(report["sodaResults"].items)
    ensures !TruthyOpt(Prop(report, "sodaResults")) ==> r == Some([])
    ensures r.None? <==> TruthyOpt(Prop(report, "sodaResults")) && !report["sodaResults"].JArr?
  {
    match Prop(report, "sodaResults")
    case Some(JArr(items)) => Some(items)
    case Some(v) => if Truthy(v) then None else Some([])
    case None => Some([])
  }

  /** The page reads back exactly the results the file backend stored in the report. */
  lemma PageReadsStoredResults(incoming: Object, now: string)
    ensures ResultsOf(ServerRules.StoredReport(incoming, now)) == Some(ServerRules.IncomingResults(incoming))
  {
    var stored := ServerRules.StoredReport(incoming, now);
    assert Prop(stored, "sodaResults") == Some(JArr(ServerRules.IncomingResults(incoming)));
  }

  /** A result the page lists as correct: its `error_type` is exactly the empty string. */
  predicate IsCorrectResult(r: Json) {
    ErrorType(r) == Some(JStr(""))
  }

  /** A result's distortion score, 0 when it is missing or null. */
  function Score(r: Json): Json {
    Nullish(Member(r, "distortion_score"), JNum(0.0))
  }

  /**
   * `v > 0` after JavaScript's numeric conversion, for numbers, booleans,
   * null and objects (NaN). Strings and arrays are not converted and count
   * as not positive.
   */
  predicate Positive(v: Json) {
    match v
    case JNum(n) => n > 0.0
    case JBool(b) => b
    case _ => false
  }

  /** A result the page lists as an error: a truthy `error_type`, or a positive distortion score. */
  predicate IsErrorResult(r: Json) {
    TruthyOpt(ErrorType(r)) || Positive(Score(r))
  }

  /** The results the page lists as correct; reading `error_type` of a null result throws, so none may be null. */
  function CorrectResults(results: seq<Json>): (r: seq<Json>)
    requires JNull !in results
    ensures IsSubsequence(r, results)
    ensures forall x :: multiset(r)[x] == if IsCorrectResult(x) then multiset(results)[x] else 0
  {
    Filter(results, IsCorrectResult)
  }

  /** The results the page lists as errors. */
  function ErrorResults(results: seq<Json>): (r: seq<Json>)
    requires JNull !in results
    ensures IsSubsequence(r, results)
    ensures forall x :: multiset(r)[x] == if IsErrorResult(x) then multiset(results)[x] else 0
  {
    Filter(results, IsErrorResult)
  }

  /**
   * The two filters are not complementary. A result is in both lists
   * exactly when its type is "" and its score is positive, and in neither
   * exactly when its type is falsy but not "" (missing, null, false, 0)
   * and its score is not positive.
   */
  lemma FiltersOverlapAndGap(r: Json)
    ensures IsCorrectResult(r) && IsErrorResult(r) <==> ErrorType(r) == Some(JStr("")) && Positive(Score(r))
    ensures !IsCorrectResult(r) && !IsErrorResult(r) <==>
      ErrorType(r) != Some(JStr("")) && !TruthyOpt(ErrorType(r)) && !Positive(Score(r))
  {
  }

  /** The two boundary cases: "" with a positive score is in both lists; no type and no score is in neither, yet counted Correct. */
  lemma FilterExamples()
    ensures var both := JObj(map["error_type" := JStr(""), "distortion_score" := JNum(0.5)]);
      IsCorrectResult(both) && IsErrorResult(both)
    ensures !IsCorrectResult(JObj(map[])) && !IsErrorResult(JObj(map[]))
    ensures BucketOf(JObj(map[])) == CorrectBucket
  {
    var both := JObj(map["error_type" := JStr(""), "distortion_score" := JNum(0.5)]);
    assert ErrorType(both) == Some(JStr(""));
    assert Score(both) == JNum(0.5);
  }

  // ---------------------------------------------------------------------
  // Word lists
  // ---------------------------------------------------------------------

  /** The characters `String.prototype.trim` removes. */
  predicate IsJsWhitespace(c: char) {
    || c == '\t' || c == '\n' || c == '\U{000B}' || c == '\U{000C}' || c == '\r' || c == ' '
    || c == '\U{00A0}' || c == '\U{1680}' || ('\U{2000}' <= c <= '\U{200A}')
    || c == '\U{2028}' || c == '\U{2029}' || c == '\U{202F}' || c == '\U{205F}'
    || c == '\U{3000}' || c == '\U{FEFF}'
  }

  /** A word that is not blank: some character survives trimming JavaScript whitespace. */
  predicate NonBlank(w: string) {
    exists i :: 0 <= i < |w| && !IsJsWhitespace(w[i])
  }

  /**
   * The non-blank words with duplicates removed through a `Set`: each once, in
   * the order of first occurrence among the non-blank words.
   */
  function UniqueNonBlank(words: seq<string>): (r: seq<string>)
    ensures forall w :: w in r <==> w in words && NonBlank(w)
    ensures NoDuplicates(r)
    ensures var kept := Filter(words, NonBlank);
      && (forall w :: w in r ==> w in kept)
      && (forall i, j :: 0 <= i < j < |r| ==> FirstIndex(kept, r[i]) < FirstIndex(kept, r[j]))
  {
    FilterMembers(words, NonBlank);
    Dedup(Filter(words, NonBlank))
  }

  /** A result's `target_word` when it is a string, otherwise the empty word. */
  function TargetWord(r: Json): string {
    match Member(r, "target_word")
    case Some(JStr(w)) => w
    case _ => ""
  }

  /**
   * The word shown for a result: the conversion of a non-empty
   * `target_syllable` list, otherwise `target_word`.
   */
  function WordOf(r: Json, toWord: seq<Json> -> string): string {
    match Member(r, "target_syllable")
    case Some(JArr(syllables)) => if |syllables| > 0 then toWord(syllables) else TargetWord(r)
    case _ => TargetWord(r)
  }

  /** The word of each result, in result order. */
  function Words(results: seq<Json>, toWord: seq<Json> -> string): (r: seq<string>)
    ensures |r| == |results|
    ensures forall i :: 0 <= i < |results| ==> r[i] == WordOf(results[i], toWord)
  {
    seq(|results|, i requires 0 <= i < |results| => WordOf(results[i], toWord))
  }

  /** The correct or wrong word list: the non-blank words of the results, each once. */
  function WordList(results: seq<Json>, toWord: seq<Json> -> string): (r: seq<string>)
    ensures NoDuplicates(r)
    ensures forall w :: w in r <==> NonBlank(w) && exists i :: 0 <= i < |results| && WordOf(results[i], toWord) == w
  {
    UniqueNonBlank(Words(results, toWord))
  }

  // ---------------------------------------------------------------------
  // Practice syllables
  // ---------------------------------------------------------------------

  /**
   * One entry of `error_syllables`: a string is kept, an object with a
   * truthy `target` gives that target, anything else gives null. A null
   * entry throws (`typeof null` is "object"), so none may be null.
   */
  function PracticeSyllable(syl: Json): (r: Json)
    requires syl != JNull
    ensures syl.JStr? ==> r == syl
    ensures syl.JObj? && TruthyOpt(Prop(syl.fields, "target")) ==> r == syl.fields["target"]
    ensures !syl.JStr? && !(syl.JObj? && TruthyOpt(Prop(syl.fields, "target"))) ==> r == JNull
  {
    match syl
    case JStr(_) => syl
    case JObj(m) => if TruthyOpt(Prop(m, "target")) then m["target"] else JNull
    case _ => JNull
  }

  /** A result's `error_syllables` list when it is an array, else nothing. */
  function SyllablesOf(r: Json): seq<Json> {
    match Member(r, "error_syllables")
    case Some(JArr(syllables)) => syllables
    case _ => []
  }

  predicate SyllablesNonNull(errors: seq<Json>) {
    forall i :: 0 <= i < |errors| ==> JNull !in SyllablesOf(errors[i])
  }

  /** The mapped syllables of one error result, in order. */
  function MappedSyllables(r: Json): seq<Json>
    requires JNull !in SyllablesOf(r)
  {
    seq(|SyllablesOf(r)|, j requires 0 <= j < |SyllablesOf(r)| => PracticeSyllable(SyllablesOf(r)[j]))
  }

  /** The `flatMap` step: every error result's syllables mapped, in order. */
  function FlatSyllables(errors: seq<Json>): seq<Json>
    requires SyllablesNonNull(errors)
  {
    if errors == [] then [] else MappedSyllables(errors[0]) + FlatSyllables(errors[1..])
  }

  /** `x` is what some syllable of the error result `r` maps to. */
  predicate MappedIn(r: Json, x: Json)
    requires JNull !in SyllablesOf(r)
  {
    exists j :: 0 <= j < |SyllablesOf(r)| && PracticeSyllable(SyllablesOf(r)[j]) == x
  }

  /** `x` is what some syllable of some error result maps to. */
  predicate MappedFromErrors(errors: seq<Json>, x: Json)
    requires SyllablesNonNull(errors)
  {
    exists i :: 0 <= i < |errors| && MappedIn(errors[i], x)
  }

  lemma MappedSyllablesMembers(r: Json, x: Json)
    requires JNull !in SyllablesOf(r)
    ensures x in MappedSyllables(r) <==> MappedIn(r, x)
  {
    if x in MappedSyllables(r) {
      var j :| 0 <= j < |MappedSyllables(r)| && MappedSyllables(r)[j] == x;
    }
    if MappedIn(r, x) {
      var j :| 0 <= j < |SyllablesOf(r)| && PracticeSyllable(SyllablesOf(r)[j]) == x;
      assert MappedSyllables(r)[j] == x;
    }
  }

  /** An entry of the flattened list is the mapping of some syllable of some error result, and every such mapping is there. */
  lemma {:induction false} FlatSyllablesMembers(errors: seq<Json>, x: Json)
    requires SyllablesNonNull(errors)
    ensures x in FlatSyllables(errors) <==> MappedFromErrors(errors, x)
  {
    if errors != [] {
      var rest := errors[1..];
      FlatSyllablesMembers(rest, x);
      MappedSyllablesMembers(errors[0], x);
      assert x in FlatSyllables(errors) <==> x in MappedSyllables(errors[0]) || x in FlatSyllables(rest);
      if MappedFromErrors(rest, x) {
        var i :| 0 <= i < |rest| && MappedIn(rest[i], x);
        assert rest[i] == errors[i + 1];
      }
      if MappedFromErrors(errors, x) {
        var i :| 0 <= i < |errors| && MappedIn(errors[i], x);
        if i > 0 {
          assert rest[i - 1] == errors[i];
        }
      }
    }
  }

  /** The raw practice syllables: the mapped syllables with the falsy ones dropped, in order. */
  function PracticeRaw(errors: seq<Json>): (r: seq<Json>)
    requires SyllablesNonNull(errors)
    ensures IsSubsequence(r, FlatSyllables(errors))
    ensures forall i :: 0 <= i < |r| ==> Truthy(r[i])
    ensures forall x :: multiset(r)[x] == if Truthy(x) then multiset(FlatSyllables(errors))[x] else 0
  {
    Filter(FlatSyllables(errors), Truthy)
  }

  /**
   * Practice extraction keeps exactly the non-empty string syllables and
   * the truthy targets of object syllables.
   */
  lemma {:induction false} PracticeRawMembers(errors: seq<Json>, x: Json)
    requires SyllablesNonNull(errors)
    ensures x in PracticeRaw(errors) <==> Truthy(x) && MappedFromErrors(errors, x)
  {
    FlatSyllablesMembers(errors, x);
    FilterMembers(FlatSyllables(errors), Truthy);
  }

  /**
   * What an error syllable contributes to practice, stated without the
   * mapping: a non-empty string syllable itself, or the truthy `target` of
   * an object syllable. Nothing else (numbers, booleans, arrays, objects
   * without a truthy target, "") contributes.
   */
  predicate PracticeSource(syl: Json, x: Json) {
    || (syl.JStr? && syl.s != [] && x == syl)
    || (syl.JObj? && "target" in syl.fields && Truthy(syl.fields["target"]) && x == syl.fields["target"])
  }

  lemma PracticeSyllableSource(syl: Json, x: Json)
    requires syl != JNull
    ensures Truthy(x) && PracticeSyllable(syl) == x <==> PracticeSource(syl, x)
  {
  }

  /** `x` is contributed by some syllable of the error result `r`. */
  predicate SourcedIn(r: Json, x: Json) {
    exists j :: 0 <= j < |SyllablesOf(r)| && PracticeSource(SyllablesOf(r)[j], x)
  }

  /** `x` is contributed by some syllable of some error result. */
  predicate SourcedFromErrors(errors: seq<Json>, x: Json) {
    exists i :: 0 <= i < |errors| && SourcedIn(errors[i], x)
  }

  lemma SourcedInMapped(r: Json, x: Json)
    requires JNull !in SyllablesOf(r)
    ensures Truthy(x) && MappedIn(r, x) <==> SourcedIn(r, x)
  {
    if Truthy(x) && MappedIn(r, x) {
      var j :| 0 <= j < |SyllablesOf(r)| && PracticeSyllable(SyllablesOf(r)[j]) == x;
      PracticeSyllableSource(SyllablesOf(r)[j], x);
    }
    if SourcedIn(r, x) {
      var j :| 0 <= j < |SyllablesOf(r)| && PracticeSource(SyllablesOf(r)[j], x);
      PracticeSyllableSource(SyllablesOf(r)[j], x);
    }
  }

  /**
   * The raw practice syllables are exactly the non-empty string syllables
   * and the truthy targets of object syllables of the error results.
   */
  lemma {:induction false} PracticeRawSources(errors: seq<Json>, x: Json)
    requires SyllablesNonNull(errors)
    ensures x in PracticeRaw(errors) <==> SourcedFromErrors(errors, x)
  {
    PracticeRawMembers(errors, x);
    if x in PracticeRaw(errors) {
      var i :| 0 <= i < |errors| && MappedIn(errors[i], x);
      SourcedInMapped(errors[i], x);
    }
    if SourcedFromErrors(errors, x) {
      var i :| 0 <= i < |errors| && SourcedIn(errors[i], x);
      SourcedInMapped(errors[i], x);
    }
  }

  function ExampleSyllables(): seq<Json> {
    [JStr("ka"), JObj(map["target" := JStr("ga")]), JNum(3.0), JObj(map[]), JStr("")]
  }

  /**
   * A string is kept, an object gives its target, a number and a
   * target-less object give null; the falsy entries are dropped afterwards.
   */
  lemma FlatSyllablesExample()
    ensures var errors := [JObj(map["error_syllables" := JArr(ExampleSyllables())])];
      SyllablesNonNull(errors) && FlatSyllables(errors) == [JStr("ka"), JStr("ga"), JNull, JNull, JStr("")]
  {
    var syllables := ExampleSyllables();
    var errors := [JObj(map["error_syllables" := JArr(syllables)])];
    assert SyllablesOf(errors[0]) == syllables;
    assert errors[1..] == [];
    assert PracticeSyllable(syllables[1]) == JStr("ga");
    assert PracticeSyllable(syllables[3]) == JNull;
  }

  /** Each raw practice syllable converted to Kannada on its own, in order. */
  function Converted(raw: seq<Json>, toKannada: Json -> string): (r: seq<string>)
    ensures |r| == |raw|
    ensures forall i :: 0 <= i < |raw| ==> r[i] == toKannada(raw[i])
  {
    seq(|raw|, i requires 0 <= i < |raw| => toKannada(raw[i]))
  }

  /** The unique practice list: the converted practice syllables, non-blank and each once. */
  function UniquePractice(raw: seq<Json>, toKannada: Json -> string): (r: seq<string>)
    ensures NoDuplicates(r)
    ensures forall w :: w in r <==> NonBlank(w) && exists i :: 0 <= i < |raw| && toKannada(raw[i]) == w
  {
    UniqueNonBlank(Converted(raw, toKannada))
  }

  // ---------------------------------------------------------------------
  // Age lists, age filter and suggestion
  // ---------------------------------------------------------------------

  const AgePractice2: seq<string> := [
    "ಅ", "ಆ", "ಇ", "ಈ", "ಉ", "ಊ", "ಎ", "ಏ", "ಒ", "ಓ", "ಅಂ"]

  const AgePractice5: seq<string> := [
    "ಕ", "ಕಾ", "ಕಿ", "ಕೀ", "ಕು", "ಕೂ", "ಕೆ", "ಕೇ", "ಕ್", "ಕೈ", "ಕೊ", "ಕೋ", "ಕೌ", "ಕಂ",
    "ಕಃ", "ಗ", "ಗಾ", "ಗಿ", "ಗೀ", "ಗು", "ಗೂ", "ಗೃ", "ಗೆ", "ಗೇ", "ಗೈ", "ಗೊ", "ಗೋ", "ಗೌ",
    "ಗಂ", "ಗಃ", "ತ", "ತಾ", "ತಿ", "ತೀ", "ತು", "ತೂ", "ತೃ", "ತೆ", "ತೇ", "ತೈ", "ತೊ", "ತೋ",
    "ತೌ", "ತಂ", "ತಃ", "ದ", "ದಾ", "ದಿ", "ದೀ", "ದು", "ದೂ", "ದೃ", "ದೆ", "ದೇ", "ದೈ", "ದೊ",
    "ದೋ", "ದೌ", "ದಂ", "ದಃ", "ನ", "ನಾ", "ನಿ", "ನೀ", "ನು", "ನೂ", "ನೃ", "ನೆ", "ನೇ", "ನೈ",
    "ನೊ", "ನೋ", "ನೌ", "ನಂ", "ನಃ", "ಬ", "ಬಾ", "ಬಿ", "ಬೀ", "ಬು", "ಬೂ", "ಬೃ", "ಬೆ", "ಬೇ",
    "ಬೈ", "ಬೊ", "ಬೋ", "ಬೌ", "ಬಂ", "ಬಃ", "ಪ", "ಪಾ", "ಪಿ", "ಪೀ", "ಪು", "ಪೂ", "ಪೃ", "ಪೆ",
    "ಪೇ", "ಪೈ", "ಪೊ", "ಪೋ", "ಪೌ", "ಪಂ", "ಪಃ", "ಟ", "ಟಾ", "ಟಿ", "ಟೀ", "ಟು", "ಟೂ", "ಟೃ",
    "ಟೆ", "ಟೇ", "ಟೈ", "ಟೊ", "ಟೋ", "ಟೌ", "ಟಂ", "ಟಃ", "ಲ", "ಲಾ", "ಲಿ", "ಲೀ", "ಲು", "ಲೂ",
    "ಲೃ", "ಲೆ", "ಲೇ", "ಲೈ", "ಲೊ", "ಲೋ", "ಲೌ", "ಲಂ", "ಲಃ", "ಚ", "ಚಾ", "ಚಿ", "ಚೀ", "ಚು",
    "ಚೂ", "ಚೃ", "ಚೆ", "ಚೇ", "ಚೈ", "ಚೊ", "ಚೋ", "ಚೌ", "ಚಂ", "ಚಃ", "ಜ", "ಜಾ", "ಜಿ", "ಜೀ",
    "ಜು", "ಜೂ", "ಜೃ", "ಜೆ", "ಜೇ", "ಜೈ", "ಜೊ", "ಜೋ", "ಜೌ", "ಜಂ", "ಜಃ", "ವ", "ವಾ", "ವಿ",
    "ವೀ", "ವು", "ವೂ", "ವೃ", "ವೆ", "ವೇ", "ವೈ", "ವೊ", "ವೋ", "ವೌ", "ವಂ", "ವಃ"]

  const AgePractice7: seq<string> := [
    "ರ", "ರಾ", "ರಿ", "ರೀ", "ರು", "ರೂ", "ರೃ", "ರೆ", "ರೇ", "ರೈ", "ರೊ", "ರೋ", "ರೌ", "ರಂ",
    "ರಃ", "ಣ", "ಣಾ", "ಣಿ", "ಣೀ", "ಣು", "ಣೂ", "ಣೃ", "ಣೆ", "ಣೇ", "ಣೈ", "ಣೊ", "ಣೋ", "ಣೌ",
    "ಣಂ", "ಣಃ", "ಸ", "ಸಾ", "ಸಿ", "ಸೀ", "ಸು", "ಸೂ", "ಸೃ", "ಸೆ", "ಸೇ", "ಸೈ", "ಸೊ", "ಸೋ",
    "ಸೌ", "ಸಂ", "ಸಃ", "ರ", "ರಾ", "ರಿ", "ರೀ", "ರು", "ರೂ", "ರೃ", "ರೆ", "ರೇ", "ರೈ", "ರೊ",
    "ರೋ", "ರೌ", "ರಂ", "ರಃ", "ಳ", "ಳಾ", "ಳಿ", "ಳೀ", "ಳು", "ಳೂ", "ಳೃ", "ಳೆ", "ಳೇ", "ಳೈ",
    "ಳೊ", "ಳೋ", "ಳೌ", "ಳಂ", "ಳಃ", "ಶ", "ಶಾ", "ಶಿ", "ಶೀ", "ಶು", "ಶೂ", "ಶೃ", "ಶೆ", "ಶೇ",
    "ಶೈ", "ಶೊ", "ಶೋ", "ಶೌ", "ಶಂ", "ಶಃ"]

  /** The practice syllables by selected age, keyed by the stored age string. */
  const AgePracticeMap: map<string, seq<string>> := map["2" := AgePractice2, "5" := AgePractice5, "7" := AgePractice7]

  /**
   * The practice list for the selected age, or the age-2 list when no age
   * is stored or the stored age has no list (every list is an array, hence
   * truthy, so the fallback fires only on a missing entry). The page thus
   * always filters against one of the defined lists, never `undefined`.
   */
  function PracticeArrayByAge(age: Option<string>): (r: seq<string>)
    ensures r in AgePracticeMap.Values
    ensures age.Some? && age.value in AgePracticeMap ==> r == AgePracticeMap[age.value]
    ensures age.None? || age.value !in AgePracticeMap ==> r == AgePractice2
  {
    if age.Some? && age.value in AgePracticeMap then AgePracticeMap[age.value] else AgePracticeMap["2"]
  }

  /** The fallback: no stored age and an age without a list both give the age-2 list. */
  lemma AgeFallback()
    ensures PracticeArrayByAge(None) == AgePractice2
    ensures PracticeArrayByAge(Some("3")) == AgePractice2
    ensures PracticeArrayByAge(Some("2")) == AgePractice2
  {
    assert "3" !in AgePracticeMap;
  }

  /** A word list as the array of strings the page holds. */
  function WordArray(words: seq<string>): (r: Json)
    ensures r.JArr? && |r.items| == |words|
    ensures forall k :: 0 <= k < |words| ==> r.items[k] == JStr(words[k])
  {
    JArr(seq(|words|, k requires 0 <= k < |words| => JStr(words[k])))
  }

  /** `agePracticeMap` as the page's object literal: each age key holds its word array. */
  function AgePracticeObject(): Object {
    map key | key in AgePracticeMap :: WordArray(AgePracticeMap[key])
  }

  /**
   * The property name `agePracticeMap[age]` looks up: the stored item, or
   * "null" when `localStorage` has none.
   */
  function AgeKey(age: Option<string>): string {
    if age.Some? then age.value else "null"
  }

  /**
   * The page's lookup, the stored age's entry or else the age-2 entry by
   * truthiness, picks the list PracticeArrayByAge picks: every list is an
   * array and hence truthy, so the fallback fires exactly when the key is
   * absent, and a missing item looks up "null", which no list has.
   */
  lemma PracticeArrayIsJsLookup(age: Option<string>)
    ensures Or(Prop(AgePracticeObject(), AgeKey(age)), AgePracticeObject()["2"]) == WordArray(PracticeArrayByAge(age))
  {
  }

  /** The unique practice words that are on the age list, in order. */
  function FilteredPractice(unique: seq<string>, ageArray: seq<string>): (r: seq<string>)
    ensures IsSubsequence(r, unique)
    ensures forall w :: w in r <==> w in unique && w in ageArray
    ensures NoDuplicates(unique) ==> NoDuplicates(r)
  {
    FilterMembers(unique, w => w in ageArray);
    SubsequenceNoDuplicates(Filter(unique, w => w in ageArray), unique);
    Filter(unique, w => w in ageArray)
  }

  /** The four advice texts, from mildest finding to none. */
  datatype Suggestion = MinorErrorsOnly | FewSoundsDifficult | ManySoundsDifficult | NoErrors

  /** The tier chain on the filtered and unique practice lists. */
  function ChooseSuggestion(filtered: seq<string>, unique: seq<string>): Suggestion {
    if |filtered| == 0 && |unique| > 0 then MinorErrorsOnly
    else if |filtered| > 0 && |filtered| <= 2 then FewSoundsDifficult
    else if |filtered| > 2 then ManySoundsDifficult
    else NoErrors
  }

  /** Number of practice syllables that are on the age list. */
  function AgeMatches(unique: seq<string>, ageArray: seq<string>): nat {
    |FilteredPractice(unique, ageArray)|
  }

  /**
   * With the filtered list taken from the unique list, the tier depends
   * only on how many practice syllables are on the age list: none of
   * several gives tier 1, one or two gives tier 2, more gives tier 3, and
   * tier 4 ("no errors") is chosen exactly when there is nothing to practise.
   */
  lemma SuggestionTiers(unique: seq<string>, ageArray: seq<string>)
    ensures var s := ChooseSuggestion(FilteredPractice(unique, ageArray), unique);
      && (s == NoErrors <==> unique == [])
      && (s == MinorErrorsOnly <==> unique != [] && forall k :: 0 <= k < |unique| ==> unique[k] !in ageArray)
      && (s == FewSoundsDifficult <==> 1 <= AgeMatches(unique, ageArray) <= 2)
      && (s == ManySoundsDifficult <==> AgeMatches(unique, ageArray) > 2)
  {
    var filtered := FilteredPractice(unique, ageArray);
    if unique == [] {
      assert filtered == [];
    }
    if filtered == [] {
      forall k | 0 <= k < |unique|
        ensures unique[k] !in ageArray
      {
        assert unique[k] in unique;
      }
    } else {
      assert filtered[0] in filtered;
    }
  }

  // ---------------------------------------------------------------------
  // The assembled details
  // ---------------------------------------------------------------------

  datatype Details = Details(
    correctList: seq<string>,
    wrongList: seq<string>,
    uniquePractice: seq<string>,
    practiceList: seq<string>,
    suggestion: Suggestion)

  /** The details `buildReportDetails` returns for a result list and the selected age's list. */
  function BuildReportDetails(results: seq<Json>, ageArray: seq<string>,
                              toWord: seq<Json> -> string, toKannada: Json -> string): (d: Details)
    requires JNull !in results
    requires SyllablesNonNull(ErrorResults(results))
    ensures NoDuplicates(d.correctList) && NoDuplicates(d.wrongList)
    ensures NoDuplicates(d.uniquePractice) && NoDuplicates(d.practiceList)
    ensures IsSubsequence(d.practiceList, d.uniquePractice)
    ensures forall w :: w in d.practiceList <==> w in d.uniquePractice && w in ageArray
    ensures d.suggestion == NoErrors <==> d.uniquePractice == []
  {
    var correctList := WordList(CorrectResults(results), toWord);
    var errors := ErrorResults(results);
    var wrongList := WordList(errors, toWord);
    var unique := UniquePractice(PracticeRaw(errors), toKannada);
    var practiceList := FilteredPractice(unique, ageArray);
    SuggestionTiers(unique, ageArray);
    Details(correctList, wrongList, unique, practiceList, ChooseSuggestion(practiceList, unique))
  }

  /** A report with no results: empty lists and the "no errors" advice. */
  lemma EmptyReportHasNoErrors(ageArray: seq<string>, toWord: seq<Json> -> string, toKannada: Json -> string)
    ensures BuildReportDetails([], ageArray, toWord, toKannada) == Details([], [], [], [], NoErrors)
  {
    var d := BuildReportDetails([], ageArray, toWord, toKannada);
    assert d.uniquePractice == [];
    assert d.correctList == [];
    assert d.wrongList == [];
  }
}

=== FILE: seqs.dfy ===
/**
 * Sequence helpers shared by the segmenter, the letter identification
 * and the report rules: flattening, order-preserving filtering,
 * subsequences and first-occurrence deduplication (`[...new Set(xs)]`).
 */
module Seqs {

  predicate NoDuplicates<T(==)>(xs: seq<T>) {
    forall i, j :: 0 <= i < j < |xs| ==> xs[i] != xs[j]
  }

  /** Concatenation of all parts, in order (`"".join(parts)`). */
  function Concat<T>(parts: seq<seq<T>>): seq<T>
  {
    if parts == [] then [] else parts[0] + Concat(parts[1..])
  }

  lemma {:induction false} ConcatAppend<T>(parts: seq<seq<T>>, last: seq<T>)
    ensures Concat(parts + [last]) == Concat(parts) + last
  {
    if parts == [] {
      assert parts + [last] == [last];
    } else {
      assert (parts + [last])[1..] == parts[1..] + [last];
      ConcatAppend(parts[1..], last);
    }
  }

  /** `a` can be obtained from `b` by deleting elements (greedy matching decides it). */
  predicate IsSubsequence<T(==)>(a: seq<T>, b: seq<T>)
    decreases |b|
  {
    if a == [] then true
    else if b == [] then false
    else if a[0] == b[0] then IsSubsequence(a[1..], b[1..])
    else IsSubsequence(a, b[1..])
  }

  lemma {:induction false} SubsequenceOfPrefixed<T>(a: seq<T>, x: T, b: seq<T>)
    requires IsSubsequence(a, b)
    ensures IsSubsequence(a, [x] + b)
    decreases |a| + |b| + 1
  {
    if a != [] && a[0] == x {
      assert ([x] + b)[1..] == b;
      // a[1..] is a subsequence of b because a is.
      SubsequenceDrop(a, b);
    } else {
      assert ([x] + b)[1..] == b;
    }
  }

  lemma {:induction false} SubsequenceDrop<T>(a: seq<T>, b: seq<T>)
    requires a != []
    requires IsSubsequence(a, b)
    ensures IsSubsequence(a[1..], b)
    decreases |a| + |b|
  {
    if b == [] {
    } else if a[0] == b[0] {
      if a[1..] != [] {
        SubsequenceDrop(a[1..], b[1..]);
      }
      SubsequenceOfPrefixed(a[1..], b[0], b[1..]);
      assert [b[0]] + b[1..] == b;
    } else {
      SubsequenceDrop(a, b[1..]);
      SubsequenceOfPrefixed(a[1..], b[0], b[1..]);
      assert [b[0]] + b[1..] == b;
    }
  }

  lemma {:induction false} SubsequenceMembers<T>(a: seq<T>, b: seq<T>)
    requires IsSubsequence(a, b)
    ensures forall x :: x in a ==> x in b
    decreases |b|
  {
    if a != [] && b != [] {
      if a[0] == b[0] {
        SubsequenceMembers(a[1..], b[1..]);
        assert a == [a[0]] + a[1..];
      } else {
        SubsequenceMembers(a, b[1..]);
      }
    }
  }

  /** A subsequence of a duplicate-free sequence is duplicate-free. */
  lemma {:induction false} SubsequenceNoDuplicates<T>(a: seq<T>, b: seq<T>)
    requires IsSubsequence(a, b)
    ensures NoDuplicates(b) ==> NoDuplicates(a)
    decreases |b|
  {
    if a != [] && b != [] && NoDuplicates(b) {
      if a[0] == b[0] {
        SubsequenceNoDuplicates(a[1..], b[1..]);
        SubsequenceMembers(a[1..], b[1..]);
        assert b[0] !in b[1..];
        forall i, j | 0 <= i < j < |a|
          ensures a[i] != a[j]
        {
          assert a[j] == a[1..][j - 1];
          if i > 0 {
            assert a[i] == a[1..][i - 1];
          }
        }
      } else {
        SubsequenceNoDuplicates(a, b[1..]);
      }
    }
  }

  /**
   * The elements of `xs` satisfying `keep`, in their original order
   * (`xs.filter(keep)`, or a Python list comprehension with a condition).
   */
  function Filter<T(!new)>(xs: seq<T>, keep: T -> bool): (r: seq<T>)
    ensures |r| <= |xs|
    ensures forall i :: 0 <= i < |r| ==> keep(r[i])
    ensures IsSubsequence(r, xs)
    ensures forall x :: multiset(r)[x] == if keep(x) then multiset(xs)[x] else 0
  {
    if xs == [] then []
    else
      var rest := Filter(xs[1..], keep);
      assert xs == [xs[0]] + xs[1..];
      if keep(xs[0]) then
        assert ([xs[0]] + rest)[1..] == rest;
        [xs[0]] + rest
      else
        SubsequenceOfPrefixed(rest, xs[0], xs[1..]);
        rest
  }

  lemma FilterUnfold<T(!new)>(xs: seq<T>, keep: T -> bool)
    requires xs != []
    ensures Filter(xs, keep) == (if keep(xs[0]) then [xs[0]] else []) + Filter(xs[1..], keep)
  {
  }

  /** Filtering with two tests that agree on every element gives the same result. */
  lemma {:induction false} FilterCongruent<T(!new)>(xs: seq<T>, p: T -> bool, q: T -> bool)
    requires forall i :: 0 <= i < |xs| ==> p(xs[i]) == q(xs[i])
    ensures Filter(xs, p) == Filter(xs, q)
  {
    if xs != [] {
      FilterCongruent(xs[1..], p, q);
    }
  }

  /** A weaker test keeps at least as many elements. */
  lemma {:induction false} FilterMonotone<T(!new)>(xs: seq<T>, p: T -> bool, q: T -> bool)
    requires forall i :: 0 <= i < |xs| ==> p(xs[i]) ==> q(xs[i])
    ensures |Filter(xs, p)| <= |Filter(xs, q)|
  {
    if xs != [] {
      FilterMonotone(xs[1..], p, q);
    }
  }

  /** Membership in a filtered sequence: the elements of `xs` that pass the test. */
  lemma FilterMembers<T(!new)>(xs: seq<T>, keep: T -> bool)
    ensures forall x :: x in Filter(xs, keep) <==> x in xs && keep(x)
  {
    var r := Filter(xs, keep);
    forall x
      ensures x in r <==> x in xs && keep(x)
    {
      assert x in r <==> multiset(r)[x] > 0;
      assert x in xs <==> multiset(xs)[x] > 0;
    }
  }

  lemma FilterEmptyIff<T(!new)>(xs: seq<T>, keep: T -> bool)
    ensures Filter(xs, keep) == [] <==> forall i :: 0 <= i < |xs| ==> !keep(xs[i])
  {
    var r := Filter(xs, keep);
    if r == [] {
      forall i | 0 <= i < |xs|
        ensures !keep(xs[i])
      {
        assert xs[i] in multiset(xs);
      }
    } else {
      assert r[0] in multiset(r);
      assert r[0] in multiset(xs);
    }
  }

  /** Index of the first occurrence of `x` in `xs`. */
  function FirstIndex<T(==)>(xs: seq<T>, x: T): (r: nat)
    requires x in xs
    ensures r < |xs| && xs[r] == x && x !in xs[..r]
  {
    if xs[0] == x then 0
    else
      assert xs == [xs[0]] + xs[1..];
      var k := FirstIndex(xs[1..], x);
      assert xs[..k + 1] == [xs[0]] + xs[1..][..k];
      k + 1
  }

  lemma FirstIndexUnique<T>(xs: seq<T>, x: T, k: nat)
    requires k < |xs| && xs[k] == x && x !in xs[..k]
    ensures FirstIndex(xs, x) == k
  {
    var f := FirstIndex(xs, x);
    assert forall j :: 0 <= j < k ==> xs[..k][j] == xs[j];
    assert forall j :: 0 <= j < f ==> xs[..f][j] == xs[j];
  }

  /**
   * First-occurrence deduplication: the order in which a JavaScript `Set`
   * keeps the elements of `xs` it is built from.
   */
  function Dedup<T(==,!new)>(xs: seq<T>): (r: seq<T>)
    ensures forall x :: x in r <==> x in xs
    ensures NoDuplicates(r)
    ensures forall i, j :: 0 <= i < j < |r| ==> FirstIndex(xs, r[i]) < FirstIndex(xs, r[j])
    decreases |xs|
  {
    if xs == [] then []
    else
      var init := xs[..|xs| - 1];
      var last := xs[|xs| - 1];
      var prev := Dedup(init);
      assert xs == init + [last];
      forall x | x in init
        ensures FirstIndex(xs, x) == FirstIndex(init, x)
      {
        var k := FirstIndex(init, x);
        assert xs[..k] == init[..k];
        FirstIndexUnique(xs, x, k);
      }
      if last in prev then prev
      else
        assert last !in xs[..|xs| - 1];
        FirstIndexUnique(xs, last, |xs| - 1);
        prev + [last]
  }

  lemma DedupLength<T(!new)>(xs: seq<T>)
    ensures |Dedup(xs)| <= |xs|
  {
    var r := Dedup(xs);
    var idx := seq(|r|, i requires 0 <= i < |r| => FirstIndex(xs, r[i]));
    StrictlyIncreasingBound(idx, |xs|);
  }

  lemma {:induction false} StrictlyIncreasingBound(idx: seq<nat>, n: nat)
    requires forall i :: 0 <= i < |idx| ==> idx[i] < n
    requires forall i, j :: 0 <= i < j < |idx| ==> idx[i] < idx[j]
    ensures |idx| <= n
    decreases n
  {
    if idx != [] {
      var init := idx[..|idx| - 1];
      assert forall i :: 0 <= i < |init| ==> init[i] < idx[|idx| - 1];
      StrictlyIncreasingBound(init, idx[|idx| - 1]);
    }
  }
}

=== FILE: server_rules.dfy ===
/**
 * The deterministic record rules inside the backend request handlers
 * (production server with its MongoDB and JSON-file paths, and the
 * development server): child creation and update, report storage, and the
 * PDF report's summary defaults and row grouping. Request parsing, storage
 * and rendering are outside the model; every rule is a function from the
 * parsed request and the loaded records to the records written back.
 */
module ServerRules {
  import opened Js
  import opened Seqs
  import opened Soda

  // ---------------------------------------------------------------------
  // Child creation (MongoDB path): phone default, gender, allowed fields
  // ---------------------------------------------------------------------

  /** ASCII lower-casing; the only characters whose lower case is a letter of "male", "female" or "other". */
  function LowerChar(c: char): char {
    if 'A' <= c <= 'Z' then (c as int + 32) as char else c
  }

  function Lower(s: string): (r: string)
    ensures |r| == |s|
    ensures forall i :: 0 <= i < |s| ==> r[i] == LowerChar(s[i])
  {
    seq(|s|, i requires 0 <= i < |s| => LowerChar(s[i]))
  }

  /** The three spellings gender normalisation produces. */
  predicate IsCanonicalGender(g: string) {
    g == "Male" || g == "Female" || g == "Other"
  }

  /** The lower-case forms of the three recognised genders. */
  predicate IsRecognisedGender(lower: string) {
    lower == "male" || lower == "female" || lower == "other"
  }

  /**
   * Gender normalisation: "male", "female" and "other" in any letter case
   * become "Male", "Female" and "Other"; every other string is kept as is.
   * The result always reads the same ignoring case, and is a canonical
   * spelling exactly when the input is recognised; as only one canonical
   * spelling has each lower-case form, this pins the result down.
   */
  function NormalizeGender(g: string): (r: string)
    ensures Lower(r) == Lower(g)
    ensures IsCanonicalGender(r) <==> IsRecognisedGender(Lower(g))
    ensures !IsCanonicalGender(r) ==> r == g
  {
    var lower := Lower(g);
    assert Lower("Male") == "male" && Lower("Female") == "female" && Lower("Other") == "other";
    if lower == "male" then "Male"
    else if lower == "female" then "Female"
    else if lower == "other" then "Other"
    else
      assert IsCanonicalGender(g) ==> IsRecognisedGender(Lower(g));
      g
  }

  /** Normalising twice changes nothing more than normalising once. */
  lemma NormalizeGenderIdempotent(g: string)
    ensures NormalizeGender(NormalizeGender(g)) == NormalizeGender(g)
  {
    var lower := Lower(g);
    if lower == "male" {
      assert Lower("Male") == "male";
    } else if lower == "female" {
      assert Lower("Female") == "female";
    } else if lower == "other" {
      assert Lower("Other") == "other";
    }
  }

  /** The gender rule on a record, applied when the gender is truthy; `None` is the TypeError a truthy non-string gender raises. */
  function ApplyGenderRule(data: Object): (r: Option<Object>)
    ensures r.None? <==> TruthyOpt(Prop(data, "gender")) && !data["gender"].JStr?
    ensures r.Some? ==> r.value.Keys == data.Keys
    ensures r.Some? ==> forall k :: k in data && k != "gender" ==> r.value[k] == data[k]
    ensures r.Some? && TruthyOpt(Prop(data, "gender")) ==>
      r.value["gender"] == JStr(NormalizeGender(data["gender"].s))
    ensures r.Some? && !TruthyOpt(Prop(data, "gender")) ==> r.value == data
  {
    if TruthyOpt(Prop(data, "gender")) then
      match data["gender"]
      case JStr(g) => Some(data["gender" := JStr(NormalizeGender(g))])
      case _ => None
    else Some(data)
  }

  /** The phone default: a falsy or missing phone becomes the empty string. */
  function DefaultPhone(data: Object): (r: Object)
    ensures "phone" in r
    ensures TruthyOpt(Prop(data, "phone")) ==> r == data
    ensures !TruthyOpt(Prop(data, "phone")) ==> r["phone"] == JStr("")
    ensures r.Keys == data.Keys + {"phone"}
    ensures forall k :: k in data && k != "phone" ==> r[k] == data[k]
  {
    if TruthyOpt(Prop(data, "phone")) then data else data["phone" := JStr("")]
  }

  /** The schema fields a new child record may carry. */
  const AllowedFields: seq<string> := ["name", "age", "gender", "parent", "city", "email", "address", "phone"]

  /**
   * The allowed-field filter: copies, in `AllowedFields` order, every
   * allowed key the record defines. A JSON value is never `undefined`, so
   * a present key is a defined one.
   */
  method FilterAllowedFields(data: Object) returns (filtered: Object)
    ensures filtered.Keys == data.Keys * set k | k in AllowedFields
    ensures forall k :: k in filtered ==> filtered[k] == data[k]
  {
    filtered := map[];
    var i := 0;
    while i < |AllowedFields|
      invariant 0 <= i <= |AllowedFields|
      invariant filtered.Keys == data.Keys * set k | k in AllowedFields[..i]
      invariant forall k :: k in filtered ==> k in data && filtered[k] == data[k]
    {
      var key := AllowedFields[i];
      if key in data {
        filtered := filtered[key := data[key]];
      }
      assert AllowedFields[..i + 1] == AllowedFields[..i] + [key];
      i := i + 1;
    }
    assert AllowedFields[..i] == AllowedFields;
  }

  /**
   * The MongoDB path of child creation before the record is saved: phone
   * default, gender normalisation, then the allowed-field filter. `None`
   * is the TypeError of a truthy non-string gender.
   */
  method NewChildRecord(body: Object) returns (r: Option<Object>)
    ensures r.None? <==> TruthyOpt(Prop(body, "gender")) && !body["gender"].JStr?
    ensures r.Some? ==> r.value.Keys == (body.Keys + {"phone"}) * set k | k in AllowedFields
    ensures r.Some? ==> r.value["phone"] == if TruthyOpt(Prop(body, "phone")) then body["phone"] else JStr("")
    ensures r.Some? && TruthyOpt(Prop(body, "gender")) ==> r.value["gender"] == JStr(NormalizeGender(body["gender"].s))
    ensures r.Some? && "gender" in body && !Truthy(body["gender"]) ==> r.value["gender"] == body["gender"]
    ensures r.Some? ==> forall k :: k in r.value && k != "phone" && k != "gender" ==> r.value[k] == body[k]
  {
    var withPhone := DefaultPhone(body);
    var normalised := ApplyGenderRule(withPhone);
    if normalised.None? {
      return None;
    }
    var filtered := FilterAllowedFields(normalised.value);
    return Some(filtered);
  }

  // ---------------------------------------------------------------------
  // JSON-file records: finding a child, next id, creation, update
  // ---------------------------------------------------------------------

  /** A stored record whose id is strictly equal to the number `childId`. */
  predicate HasId(c: Object, childId: real) {
    Prop(c, "id") == Some(JNum(childId))
  }

  /** The index of the first record with the id, `None` when no record has it. */
  function FindChild(children: seq<Object>, childId: real): (r: Option<nat>)
    ensures r.None? <==> forall k :: 0 <= k < |children| ==> !HasId(children[k], childId)
    ensures r.Some? ==> r.value < |children| && HasId(children[r.value], childId)
    ensures r.Some? ==> forall k :: 0 <= k < r.value ==> !HasId(children[k], childId)
  {
    if children == [] then None
    else if HasId(children[0], childId) then Some(0)
    else
      match FindChild(children[1..], childId)
      case None => None
      case Some(k) => Some(k + 1)
  }

  /** The record ids are numbers in strictly increasing file order. */
  predicate IdsIncreasing(children: seq<Object>) {
    && (forall k :: 0 <= k < |children| ==> "id" in children[k] && children[k]["id"].JNum?)
    && (forall i, j :: 0 <= i < j < |children| ==> children[i]["id"].n < children[j]["id"].n)
  }

  /**
   * JavaScript's `x + 1` as the value the file then holds. A number adds
   * one; null and the booleans convert to 0 or 1 first; undefined gives
   * NaN, which the file stores as null; a string, and an object through
   * its string form "[object Object]", is concatenated with "1". `None`
   * stands for an array, whose string form joins its elements.
   */
  function PlusOne(x: Option<Json>): (r: Option<Json>)
    ensures r.None? <==> x.Some? && x.value.JArr?
    ensures x.None? ==> r == Some(JNull)
    ensures x.Some? && x.value.JNum? ==> r == Some(JNum(x.value.n + 1.0))
    ensures x == Some(JNull) || x == Some(JBool(false)) ==> r == Some(JNum(1.0))
    ensures x == Some(JBool(true)) ==> r == Some(JNum(2.0))
    ensures x.Some? && x.value.JStr? ==> r == Some(JStr(x.value.s + "1"))
    ensures x.Some? && x.value.JObj? ==> r == Some(JStr("[object Object]1"))
  {
    match x
    case None => Some(JNull)
    case Some(JNum(n)) => Some(JNum(n + 1.0))
    case Some(JNull) => Some(JNum(1.0))
    case Some(JBool(b)) => Some(JNum(if b then 2.0 else 1.0))
    case Some(JStr(t)) => Some(JStr(t + "1"))
    case Some(JObj(_)) => Some(JStr("[object Object]1"))
    case Some(JArr(_)) => None
  }

  /**
   * Next id for the JSON file: the last record's id plus one as JavaScript's
   * `+` computes it, or 1 for an empty file. It is a number when the last id
   * is a number, null or a boolean, and the concatenated string when it is
   * a string. While the stored ids increase along the file, the next id is
   * a number above every one of them.
   */
  function NextId(children: seq<Object>): (r: Option<Json>)
    ensures r.None? <==> children != [] && Prop(children[|children| - 1], "id").Some? && children[|children| - 1]["id"].JArr?
    ensures IdsIncreasing(children) ==> r.Some? && r.value.JNum? && forall k :: 0 <= k < |children| ==> children[k]["id"].n < r.value.n
    ensures children != [] && Prop(children[|children| - 1], "id").Some? && children[|children| - 1]["id"].JNum? ==>
      r == Some(JNum(children[|children| - 1]["id"].n + 1.0))
    ensures children != [] && Prop(children[|children| - 1], "id") in {Some(JNull), Some(JBool(false))} ==> r == Some(JNum(1.0))
    ensures children != [] && Prop(children[|children| - 1], "id") == Some(JBool(true)) ==> r == Some(JNum(2.0))
    ensures children != [] && Prop(children[|children| - 1], "id").Some? && children[|children| - 1]["id"].JStr? ==>
      r == Some(JStr(children[|children| - 1]["id"].s + "1"))
    ensures children != [] && Prop(children[|children| - 1], "id").None? ==> r == Some(JNull)
    ensures children == [] ==> r == Some(JNum(1.0))
  {
    if children == [] then Some(JNum(1.0))
    else PlusOne(Prop(children[|children| - 1], "id"))
  }

  /** While ids increase along the file, no record already has the next id. */
  lemma NextIdIsFresh(children: seq<Object>)
    requires IdsIncreasing(children)
    ensures NextId(children).Some? && NextId(children).value.JNum?
    ensures FindChild(children, NextId(children).value.n).None?
  {
  }

  /**
   * A record whose id was written as null (a NaN id serialises to null)
   * makes the next id 1 again, which the first record may already have.
   */
  lemma NullIdRepeatsId()
    ensures var children := [map["id" := JNum(1.0)], map["id" := JNull]];
      NextId(children) == Some(JNum(1.0)) && FindChild(children, 1.0) == Some(0)
  {
  }

  /**
   * After a record whose id is the string "5" the next child is stored
   * with the string id "51", which no numeric route id can find.
   */
  lemma StringIdConcatenates(body: Object)
    ensures var children: seq<Object> := [map["id" := JStr("5")]];
      && AddChild(children, body, true).Some?
      && AddChild(children, body, true).value[1]["id"] == JStr("51")
      && forall n: real :: FindChild(AddChild(children, body, true).value, n) == None
  {
  }

  /**
   * JSON-file child creation. The production server first defaults the
   * phone (`withPhoneDefault`), the development server does not; both then
   * set `id` to the next id and append the record. `None` stands only for
   * an array last id, where the source appends a record whose id this
   * model does not compute.
   */
  function AddChild(children: seq<Object>, body: Object, withPhoneDefault: bool): (r: Option<seq<Object>>)
    ensures r.None? <==> NextId(children).None?
    ensures r.Some? ==> |r.value| == |children| + 1 && r.value[..|children|] == children
    ensures r.Some? ==> r.value[|children|].Keys == body.Keys + {"id"} + (if withPhoneDefault then {"phone"} else {})
    ensures r.Some? ==> r.value[|children|]["id"] == NextId(children).value
    ensures r.Some? ==> forall k :: k in body && k != "id" && (k != "phone" || !withPhoneDefault) ==>
      r.value[|children|][k] == body[k]
    ensures r.Some? && withPhoneDefault ==>
      r.value[|children|]["phone"] == if TruthyOpt(Prop(body, "phone")) then body["phone"] else JStr("")
  {
    match NextId(children)
    case None => None
    case Some(id) =>
      var record := if withPhoneDefault then DefaultPhone(body) else body;
      Some(children + [record["id" := id]])
  }

  /** The update merge: the stored fields, overridden by the body's fields, and then the id forced to the requested one. */
  function MergeUpdate(stored: Object, body: Object, childId: real): (r: Object)
    ensures r.Keys == stored.Keys + body.Keys + {"id"}
    ensures r["id"] == JNum(childId)
    ensures forall k :: k in body && k != "id" ==> r[k] == body[k]
    ensures forall k :: k in stored && k !in body && k != "id" ==> r[k] == stored[k]
  {
    stored + body + map["id" := JNum(childId)]
  }

  /**
   * JSON-file child update: `None` is the 404 for an id no record has
   * (and nothing changes); otherwise only the first record with that id is
   * replaced by the merge, and fields absent from the body, such as
   * `reports`, survive.
   */
  function UpdateChild(children: seq<Object>, childId: int, body: Object): (r: Option<seq<Object>>)
    ensures r.None? <==> forall k :: 0 <= k < |children| ==> !HasId(children[k], childId as real)
    ensures r.Some? ==> |r.value| == |children|
    ensures r.Some? ==> var k := FindChild(children, childId as real).value;
      && r.value[k] == MergeUpdate(children[k], body, childId as real)
      && forall j :: 0 <= j < |children| && j != k ==> r.value[j] == children[j]
  {
    match FindChild(children, childId as real)
    case None => None
    case Some(k) => Some(children[k := MergeUpdate(children[k], body, childId as real)])
  }

  /** An update keeps the record findable under the same id: the id cannot be changed through the body. */
  lemma UpdateKeepsId(children: seq<Object>, childId: int, body: Object)
    requires UpdateChild(children, childId, body).Some?
    ensures var updated := UpdateChild(children, childId, body).value;
      FindChild(updated, childId as real) == FindChild(children, childId as real)
  {
    var updated := UpdateChild(children, childId, body).value;
    var k := FindChild(children, childId as real).value;
    assert HasId(updated[k], childId as real);
    assert forall j :: 0 <= j < k ==> updated[j] == children[j];
  }

  // ---------------------------------------------------------------------
  // Report storage
  // ---------------------------------------------------------------------

  /** The results a report stores: the incoming `sodaResults` when it is an array, otherwise none. */
  function IncomingResults(incoming: Object): (r: seq<Json>)
    ensures Prop(incoming, "sodaResults").Some? && incoming["sodaResults"].JArr? ==> r == incoming["sodaResults"].items
    ensures !(Prop(incoming, "sodaResults").Some? && incoming["sodaResults"].JArr?) ==> r == []
  {
    match Prop(incoming, "sodaResults")
    case Some(JArr(items)) => items
    case _ => []
  }

  /**
   * The summary a report stores: a truthy incoming summary is trusted as
   * is, otherwise the counts are computed from the stored results; either
   * way a stored report always carries a truthy summary.
   */
  function IncomingSummary(incoming: Object): (r: Json)
    ensures Truthy(r)
    ensures TruthyOpt(Prop(incoming, "summary")) ==> r == incoming["summary"]
    ensures !TruthyOpt(Prop(incoming, "summary")) ==> r == SummaryJson(SummarizeSoda(IncomingResults(incoming)))
  {
    var computed := SummaryJson(SummarizeSoda(IncomingResults(incoming)));
    assert Truthy(computed);
    Or(Prop(incoming, "summary"), computed)
  }

  /**
   * The report the JSON-file path stores: the incoming fields, then `date`
   * (kept when truthy, else the current time), `sodaResults` and `summary`,
   * which override the incoming ones. `now` is the ISO timestamp.
   */
  function StoredReport(incoming: Object, now: string): (r: Object)
    ensures r.Keys == incoming.Keys + {"date", "sodaResults", "summary"}
    ensures "date" in r && "sodaResults" in r && "summary" in r
    ensures r["sodaResults"] == JArr(IncomingResults(incoming))
    ensures r["summary"] == IncomingSummary(incoming)
    ensures TruthyOpt(Prop(incoming, "date")) ==> r["date"] == incoming["date"]
    ensures !TruthyOpt(Prop(incoming, "date")) ==> r["date"] == JStr(now)
    ensures now != "" ==> Truthy(r["date"])
    ensures Truthy(r["summary"])
    ensures forall k :: k in incoming && k != "date" && k != "sodaResults" && k != "summary" ==> r[k] == incoming[k]
  {
    incoming + map[
      "date" := Or(Prop(incoming, "date"), JStr(now)),
      "sodaResults" := JArr(IncomingResults(incoming)),
      "summary" := IncomingSummary(incoming)]
  }

  /**
   * The report the MongoDB path builds before saving (the `Child` schema
   * then decides which fields persist): `date` is written BEFORE the
   * incoming fields are spread, so an incoming `date` key wins even when
   * its value is falsy; `now` is the current `Date`.
   */
  function StoredReportMongo(incoming: Object, now: Json): (r: Object)
    ensures r.Keys == incoming.Keys + {"date", "sodaResults", "summary"}
    ensures r["sodaResults"] == JArr(IncomingResults(incoming))
    ensures r["summary"] == IncomingSummary(incoming)
    ensures "date" in incoming ==> r["date"] == incoming["date"]
    ensures "date" !in incoming ==> r["date"] == now
    ensures forall k :: k in incoming && k != "sodaResults" && k != "summary" ==> r[k] == incoming[k]
  {
    map["date" := Or(Prop(incoming, "date"), now)] + incoming + map[
      "sodaResults" := JArr(IncomingResults(incoming)),
      "summary" := IncomingSummary(incoming)]
  }

  /** The two paths disagree on an explicit null date: the file path stamps the time, MongoDB keeps null. */
  lemma NullDateDiffers(now: string)
    requires now != ""
    ensures StoredReport(map["date" := JNull], now)["date"] == JStr(now)
    ensures StoredReportMongo(map["date" := JNull], JStr(now))["date"] == JNull
  {
  }

  /** A stored report without its own summary carries counts that add up to its results. */
  lemma StoredSummaryCounts(incoming: Object, now: string)
    requires !TruthyOpt(Prop(incoming, "summary"))
    ensures StoredReport(incoming, now)["summary"] == SummaryJson(SummarizeSoda(IncomingResults(incoming)))
    ensures Total(SummarizeSoda(IncomingResults(incoming))) == |IncomingResults(incoming)|
  {
    TotalIsLength(IncomingResults(incoming));
  }

  /**
   * Posting a stored report again stores it unchanged: its date is truthy,
   * its results are already an array and its summary is truthy, so none of
   * the defaults applies a second time.
   */
  lemma ResubmittedReportUnchanged(incoming: Object, now: string, later: string)
    requires now != ""
    ensures StoredReport(StoredReport(incoming, now), later) == StoredReport(incoming, now)
  {
    var stored := StoredReport(incoming, now);
    assert IncomingResults(stored) == IncomingResults(incoming);
    assert IncomingSummary(stored) == stored["summary"];
    assert Or(Prop(stored, "date"), JStr(later)) == stored["date"];
  }

  /** The child's reports: the stored array, or `[]` when `reports` is not an array. */
  function ReportsOf(child: Object): seq<Json> {
    match Prop(child, "reports")
    case Some(JArr(items)) => items
    case _ => []
  }

  /** Appending a report: a `reports` field that is not an array is first reset to an empty one. */
  function AppendReport(child: Object, report: Object): (r: Object)
    ensures r.Keys == child.Keys + {"reports"}
    ensures r["reports"].JArr? && r["reports"].items == ReportsOf(child) + [JObj(report)]
    ensures forall k :: k in child && k != "reports" ==> r[k] == child[k]
  {
    child["reports" := JArr(ReportsOf(child) + [JObj(report)])]
  }

  /**
   * The JSON-file report handler: `None` is the 404 for an unknown id;
   * otherwise the first child with that id gets the stored report appended
   * and every other record is unchanged.
   */
  function AddReport(children: seq<Object>, childId: int, incoming: Object, now: string): (r: Option<seq<Object>>)
    ensures r.None? <==> forall k :: 0 <= k < |children| ==> !HasId(children[k], childId as real)
    ensures r.Some? ==> |r.value| == |children|
    ensures r.Some? ==> var k := FindChild(children, childId as real).value;
      r.value[k].Keys == children[k].Keys + {"reports"}
    ensures r.Some? ==> var k := FindChild(children, childId as real).value;
      r.value[k]["reports"] == JArr(ReportsOf(children[k]) + [JObj(StoredReport(incoming, now))])
    ensures r.Some? ==> var k := FindChild(children, childId as real).value;
      forall key :: key in children[k] && key != "reports" ==> r.value[k][key] == children[k][key]
    ensures r.Some? ==> var k := FindChild(children, childId as real).value;
      forall j :: 0 <= j < |children| && j != k ==> r.value[j] == children[j]
  {
    match FindChild(children, childId as real)
    case None => None
    case Some(k) => Some(children[k := AppendReport(children[k], StoredReport(incoming, now))])
  }

  // ---------------------------------------------------------------------
  // PDF report: summary defaults, total errors, row grouping
  // ---------------------------------------------------------------------

  /** The five summary keys, in the PDF's order. */
  const SummaryKeys: seq<string> := ["Correct", "Substitution", "Omission", "Addition", "Distortion"]

  /** A printed summary field: the report's summary value under `key`, or 0 when it is missing or null. */
  function SummaryField(report: Json, key: string): (r: Json)
    ensures r != JNull
    ensures MemberOpt(Member(report, "summary"), key).Some? && MemberOpt(Member(report, "summary"), key).value != JNull ==>
      r == MemberOpt(Member(report, "summary"), key).value
    ensures MemberOpt(Member(report, "summary"), key).None? || MemberOpt(Member(report, "summary"), key).value == JNull ==>
      r == JNum(0.0)
  {
    Nullish(MemberOpt(Member(report, "summary"), key), JNum(0.0))
  }

  /** The PDF's summary object: each of the five keys from the report's summary, 0 when missing or null. */
  function PdfSummary(report: Json): (r: map<string, Json>)
    ensures forall k :: k in SummaryKeys ==> k in r && r[k] == SummaryField(report, k) && r[k] != JNull
  {
    map[
      "Correct" := SummaryField(report, "Correct"),
      "Substitution" := SummaryField(report, "Substitution"),
      "Omission" := SummaryField(report, "Omission"),
      "Addition" := SummaryField(report, "Addition"),
      "Distortion" := SummaryField(report, "Distortion")]
  }

  /** The PDF's result list: the payload report's `sodaResults` when it is an array, otherwise none. */
  function PdfResults(payload: Object): (r: seq<Json>)
    ensures var report := Or(Prop(payload, "report"), JObj(map[]));
      Member(report, "sodaResults").Some? && Member(report, "sodaResults").value.JArr? ==>
        r == Member(report, "sodaResults").value.items
    ensures var report := Or(Prop(payload, "report"), JObj(map[]));
      !(Member(report, "sodaResults").Some? && Member(report, "sodaResults").value.JArr?) ==> r == []
  {
    var report := Or(Prop(payload, "report"), JObj(map[]));
    match Member(report, "sodaResults")
    case Some(JArr(items)) => items
    case _ => []
  }

  /**
   * "Total errors": Substitution + Omission + Addition + Distortion of the
   * defaulted summary. `None` when a count is not a number, where
   * JavaScript's `+` would concatenate or coerce.
   */
  function TotalErrors(summary: map<string, Json>): (r: Option<real>)
    requires forall k :: k in SummaryKeys ==> k in summary
    ensures r.Some? <==> summary["Substitution"].JNum? && summary["Omission"].JNum?
                         && summary["Addition"].JNum? && summary["Distortion"].JNum?
    ensures r.Some? ==> r.value == summary["Substitution"].n + summary["Omission"].n
                                   + summary["Addition"].n + summary["Distortion"].n
  {
    if summary["Substitution"].JNum? && summary["Omission"].JNum? && summary["Addition"].JNum? && summary["Distortion"].JNum? then
      Some(summary["Substitution"].n + summary["Omission"].n + summary["Addition"].n + summary["Distortion"].n)
    else None
  }

  /** The printed Correct count is defaulted to 0 a second time; that changes nothing. */
  lemma PrintedCorrectIsDefaulted(report: Json)
    ensures Nullish(Some(PdfSummary(report)["Correct"]), JNum(0.0)) == PdfSummary(report)["Correct"]
  {
  }

  /** The defaulted field of a report whose summary object holds the counts `s`. */
  lemma SummaryFieldOfCounts(s: Summary, report: Json, key: string)
    requires report.JObj? && "summary" in report.fields && report.fields["summary"] == SummaryJson(s)
    requires key in SummaryKeys
    ensures SummaryField(report, key) == SummaryJson(s).fields[key]
  {
    var fields := SummaryJson(s).fields;
    assert Member(report, "summary") == Some(SummaryJson(s));
    assert Member(SummaryJson(s), key) == Some(fields[key]);
  }

  /**
   * For a report whose summary object holds the counts `s`, the PDF shows
   * exactly those counts, and "total errors" is everything not Correct.
   */
  lemma PdfShowsCounts(s: Summary, report: Json)
    requires report.JObj? && "summary" in report.fields && report.fields["summary"] == SummaryJson(s)
    ensures PdfSummary(report)["Correct"] == JNum(s.correct as real)
    ensures TotalErrors(PdfSummary(report)) == Some((Total(s) - s.correct) as real)
  {
    var pdf := PdfSummary(report);
    SummaryFieldOfCounts(s, report, "Correct");
    SummaryFieldOfCounts(s, report, "Substitution");
    SummaryFieldOfCounts(s, report, "Omission");
    SummaryFieldOfCounts(s, report, "Addition");
    SummaryFieldOfCounts(s, report, "Distortion");
    assert pdf["Substitution"] == JNum(s.substitution as real);
    assert pdf["Omission"] == JNum(s.omission as real);
    assert pdf["Addition"] == JNum(s.addition as real);
    assert pdf["Distortion"] == JNum(s.distortion as real);
  }

  /** The PDF of a report stored by the file path lists exactly the stored results. */
  lemma PdfListsStoredResults(incoming: Object, now: string)
    ensures PdfResults(map["report" := JObj(StoredReport(incoming, now))]) == IncomingResults(incoming)
  {
    var stored := StoredReport(incoming, now);
    var payload := map["report" := JObj(stored)];
    assert Prop(payload, "report") == Some(JObj(stored));
    assert Member(JObj(stored), "sodaResults") == Some(JArr(IncomingResults(incoming)));
  }

  /**
   * The PDF group key: the row's `error_type`, or "Correct" when that is
   * falsy; `None` is the TypeError of reading a property of a null row.
   * On the four labels and on falsy types it names the counter
   * `summarizeSODA` uses; any other truthy type is a group of its own,
   * though the summary counts it as Correct.
   */
  function GroupKey(row: Json): (r: Option<Json>)
    ensures r.None? <==> row == JNull
    ensures r.Some? && (IsErrorLabel(ErrorType(row)) || !TruthyOpt(ErrorType(row))) ==>
      r.value == JStr(LabelOf(BucketOf(row)))
    ensures r.Some? && TruthyOpt(ErrorType(row)) && !IsErrorLabel(ErrorType(row)) ==>
      r.value == ErrorType(row).value && BucketOf(row) == CorrectBucket
  {
    if row == JNull then None else Some(Or(ErrorType(row), JStr("Correct")))
  }

  predicate InGroup(row: Json, groupType: string) {
    GroupKey(row) == Some(JStr(groupType))
  }

  /**
   * The rows printed under `groupType`, in result order; `None` when a null
   * row makes the grouping throw.
   */
  function PdfRows(results: seq<Json>, groupType: string): (r: Option<seq<Json>>)
    ensures r.None? <==> JNull in results
    ensures r.Some? ==> IsSubsequence(r.value, results)
    ensures r.Some? ==> forall row :: multiset(r.value)[row] == if InGroup(row, groupType) then multiset(results)[row] else 0
  {
    if JNull in results then None
    else Some(Filter(results, row => InGroup(row, groupType)))
  }

  /** For the four error types, a PDF group holds exactly the rows `summarizeSODA` counted for that type. */
  lemma {:induction false} ErrorGroupMatchesCount(results: seq<Json>, b: Bucket)
    requires JNull !in results && b != CorrectBucket
    ensures |PdfRows(results, LabelOf(b)).value| == Counter(SummarizeSoda(results), b)
  {
    var t := LabelOf(b);
    assert t != [] && t != "Correct";
    forall k | 0 <= k < |results|
      ensures InGroup(results[k], t) == IsString(ErrorType(results[k]), t)
    {
      assert results[k] != JNull;
    }
    ErrorCounter(results, b);
    FilterCongruent(results, row => InGroup(row, t), item => IsString(ErrorType(item), t));
  }

  /**
   * The Correct group can be smaller than the Correct count: it holds only
   * rows with a falsy or "Correct" type, while the count also takes every
   * unrecognised type.
   */
  lemma {:induction false} CorrectGroupAtMostCount(results: seq<Json>)
    requires JNull !in results
    ensures |PdfRows(results, "Correct").value| <= SummarizeSoda(results).correct
  {
    forall k | 0 <= k < |results|
      ensures InGroup(results[k], "Correct") ==> !IsErrorLabel(ErrorType(results[k]))
    {
      assert results[k] != JNull;
    }
    CorrectCounter(results);
    FilterMonotone(results, row => InGroup(row, "Correct"), item => !IsErrorLabel(ErrorType(item)));
  }

  /** A row typed "distortion" is tallied as Correct but printed in no group. */
  lemma UnknownTypeInNoGroup()
    ensures var row := JObj(map["error_type" := JStr("distortion")]);
      && SummarizeSoda([row]).correct == 1
      && forall k :: 0 <= k < |SummaryKeys| ==> !InGroup(row, SummaryKeys[k])
  {
    var row := JObj(map["error_type" := JStr("distortion")]);
    assert [row][1..] == [];
    assert BucketOf(row) == CorrectBucket;
  }
}

=== FILE: soda.dfy ===
/**
 * SODA (Substitution, Omission, Distortion, Addition) result summaries:
 * `summarizeSODA`, identical in the production server, the development
 * server and the report page, and the report page's `overallFromSummary`.
 */
module Soda {
  import opened Js
  import opened Seqs

  /** The five counters `{Correct, Substitution, Omission, Addition, Distortion}`. */
  datatype Summary = Summary(correct: nat, substitution: nat, omission: nat, addition: nat, distortion: nat)

  datatype Bucket = CorrectBucket | SubstitutionBucket | OmissionBucket | AdditionBucket | DistortionBucket

  function Total(s: Summary): nat {
    s.correct + s.substitution + s.omission + s.addition + s.distortion
  }

  /** `item?.error_type`: missing for null items, non-objects and objects without the property. */
  function ErrorType(item: Json): Option<Json> {
    Member(item, "error_type")
  }

  /** The four error labels `summarizeSODA` recognises, compared case-sensitively. */
  predicate IsErrorLabel(et: Option<Json>) {
    IsString(et, "Distortion") || IsString(et, "Substitution") || IsString(et, "Omission") || IsString(et, "Addition")
  }

  /** The first-match chain: Distortion, Substitution, Omission, Addition, and Correct for anything else. */
  function BucketOf(item: Json): Bucket {
    match ErrorType(item)
    case Some(JStr(t)) =>
      if t == "Distortion" then DistortionBucket
      else if t == "Substitution" then SubstitutionBucket
      else if t == "Omission" then OmissionBucket
      else if t == "Addition" then AdditionBucket
      else CorrectBucket
    case _ => CorrectBucket
  }

  /** Each error bucket holds exactly the items with that label; Correct holds all others. */
  lemma BucketOfLabels(item: Json)
    ensures BucketOf(item) == CorrectBucket <==> !IsErrorLabel(ErrorType(item))
    ensures BucketOf(item) == DistortionBucket <==> IsString(ErrorType(item), "Distortion")
    ensures BucketOf(item) == SubstitutionBucket <==> IsString(ErrorType(item), "Substitution")
    ensures BucketOf(item) == OmissionBucket <==> IsString(ErrorType(item), "Omission")
    ensures BucketOf(item) == AdditionBucket <==> IsString(ErrorType(item), "Addition")
  {
  }

  function Increment(s: Summary, b: Bucket): Summary {
    match b
    case CorrectBucket => Summary(s.correct + 1, s.substitution, s.omission, s.addition, s.distortion)
    case SubstitutionBucket => Summary(s.correct, s.substitution + 1, s.omission, s.addition, s.distortion)
    case OmissionBucket => Summary(s.correct, s.substitution, s.omission + 1, s.addition, s.distortion)
    case AdditionBucket => Summary(s.correct, s.substitution, s.omission, s.addition + 1, s.distortion)
    case DistortionBucket => Summary(s.correct, s.substitution, s.omission, s.addition, s.distortion + 1)
  }

  /** `summarizeSODA`: every item lands in exactly one counter. */
  function SummarizeSoda(results: seq<Json>): Summary
  {
    if results == [] then Summary(0, 0, 0, 0, 0)
    else Increment(SummarizeSoda(results[1..]), BucketOf(results[0]))
  }

  /** The items whose `error_type` is exactly the string `errorType`. */
  function WithLabel(results: seq<Json>, errorType: string): seq<Json> {
    Filter(results, item => IsString(ErrorType(item), errorType))
  }

  /** The items `summarizeSODA` counts as Correct. */
  function Unlabelled(results: seq<Json>): seq<Json> {
    Filter(results, item => !IsErrorLabel(ErrorType(item)))
  }

  /** The counter `Increment` advances for bucket `b`. */
  function Counter(s: Summary, b: Bucket): nat {
    match b
    case CorrectBucket => s.correct
    case SubstitutionBucket => s.substitution
    case OmissionBucket => s.omission
    case AdditionBucket => s.addition
    case DistortionBucket => s.distortion
  }

  lemma {:induction false} CounterCountsBucket(results: seq<Json>, b: Bucket)
    ensures Counter(SummarizeSoda(results), b) == |Filter(results, item => BucketOf(item) == b)|
  {
    if results != [] {
      var rest := SummarizeSoda(results[1..]);
      var first := BucketOf(results[0]);
      CounterCountsBucket(results[1..], b);
      IncrementCounter(rest, first, b);
      assert SummarizeSoda(results) == Increment(rest, first);
      FilterUnfold(results, item => BucketOf(item) == b);
    }
  }

  lemma IncrementCounter(s: Summary, first: Bucket, b: Bucket)
    ensures Counter(Increment(s, first), b) == Counter(s, b) + if first == b then 1 else 0
  {
  }

  /** The label that selects error bucket `b`. */
  function LabelOf(b: Bucket): string {
    match b
    case CorrectBucket => "Correct"
    case SubstitutionBucket => "Substitution"
    case OmissionBucket => "Omission"
    case AdditionBucket => "Addition"
    case DistortionBucket => "Distortion"
  }

  lemma ErrorCounter(results: seq<Json>, b: Bucket)
    requires b != CorrectBucket
    ensures Counter(SummarizeSoda(results), b) == |WithLabel(results, LabelOf(b))|
  {
    CounterCountsBucket(results, b);
    forall k | 0 <= k < |results|
      ensures (BucketOf(results[k]) == b) == IsString(ErrorType(results[k]), LabelOf(b))
    {
      BucketOfLabels(results[k]);
    }
    FilterCongruent(results, item => BucketOf(item) == b, item => IsString(ErrorType(item), LabelOf(b)));
  }

  lemma CorrectCounter(results: seq<Json>)
    ensures SummarizeSoda(results).correct == |Unlabelled(results)|
  {
    CounterCountsBucket(results, CorrectBucket);
    forall k | 0 <= k < |results|
      ensures (BucketOf(results[k]) == CorrectBucket) == !IsErrorLabel(ErrorType(results[k]))
    {
      BucketOfLabels(results[k]);
    }
    FilterCongruent(results, item => BucketOf(item) == CorrectBucket, item => !IsErrorLabel(ErrorType(item)));
  }

  /**
   * Each error counter counts exactly the items carrying that label;
   * Correct counts exactly the rest: null items, a missing `error_type`,
   * "", and every other value, such as "distortion" or "Correct".
   */
  lemma {:induction false} SummaryCounts(results: seq<Json>)
    ensures SummarizeSoda(results).distortion == |WithLabel(results, "Distortion")|
    ensures SummarizeSoda(results).substitution == |WithLabel(results, "Substitution")|
    ensures SummarizeSoda(results).omission == |WithLabel(results, "Omission")|
    ensures SummarizeSoda(results).addition == |WithLabel(results, "Addition")|
    ensures SummarizeSoda(results).correct == |Unlabelled(results)|
  {
    ErrorCounter(results, DistortionBucket);
    ErrorCounter(results, SubstitutionBucket);
    ErrorCounter(results, OmissionBucket);
    ErrorCounter(results, AdditionBucket);
    CorrectCounter(results);
  }

  /** The five reference filters partition the results. */
  lemma {:induction false} CountsConserved(results: seq<Json>)
    ensures |WithLabel(results, "Distortion")| + |WithLabel(results, "Substitution")|
          + |WithLabel(results, "Omission")| + |WithLabel(results, "Addition")|
          + |Unlabelled(results)| == |results|
  {
    TotalIsLength(results);
    SummaryCounts(results);
  }

  /** Counts are conserved: the five counters add up to the number of results, whatever they hold. */
  lemma {:induction false} TotalIsLength(results: seq<Json>)
    ensures Total(SummarizeSoda(results)) == |results|
  {
    if results != [] {
      TotalIsLength(results[1..]);
      IncrementTotal(SummarizeSoda(results[1..]), BucketOf(results[0]));
    }
  }

  lemma IncrementTotal(s: Summary, b: Bucket)
    ensures Total(Increment(s, b)) == Total(s) + 1
  {
  }

  /** Nothing is rejected: a null item, a missing type, "" and a wrongly-cased label all count as Correct. */
  lemma CorrectFallback()
    ensures SummarizeSoda([JNull, JObj(map[]), JObj(map["error_type" := JStr("")]),
                           JObj(map["error_type" := JStr("distortion")])]) == Summary(4, 0, 0, 0, 0)
  {
    var a, b, c, d := JNull, JObj(map[]), JObj(map["error_type" := JStr("")]), JObj(map["error_type" := JStr("distortion")]);
    assert ErrorType(c) == Some(JStr(""));
    assert ErrorType(d) == Some(JStr("distortion"));
    assert "distortion" != "Distortion" by { assert "distortion"[0] != "Distortion"[0]; }
    assert BucketOf(d) == CorrectBucket;
    assert SummarizeSoda([d]) == Summary(1, 0, 0, 0, 0);
    assert [c, d][1..] == [d];
    assert SummarizeSoda([c, d]) == Summary(2, 0, 0, 0, 0);
    assert [b, c, d][1..] == [c, d];
    assert SummarizeSoda([b, c, d]) == Summary(3, 0, 0, 0, 0);
    assert [a, b, c, d][1..] == [b, c, d];
  }

  /** The stored form of a summary: an object with the five counters as numbers. */
  function SummaryJson(s: Summary): Json {
    JObj(map[
      "Correct" := JNum(s.correct as real),
      "Substitution" := JNum(s.substitution as real),
      "Omission" := JNum(s.omission as real),
      "Addition" := JNum(s.addition as real),
      "Distortion" := JNum(s.distortion as real)])
  }

  /**
   * `overallFromSummary`: the Correct share of all counted items as a
   * percentage rounded to the nearest integer, halves rounding up, and 0
   * when nothing was counted.
   */
  function OverallFromSummary(s: Summary): (pct: int)
    ensures 0 <= pct <= 100
    ensures Total(s) == 0 ==> pct == 0
    ensures Total(s) > 0 ==>
      2 * pct * Total(s) - Total(s) <= 200 * s.correct < 2 * pct * Total(s) + Total(s)
  {
    var total := Total(s);
    if total == 0 then 0
    else
      var pct := (200 * s.correct + total) / (2 * total);
      RoundingBounds(s.correct, total, pct);
      pct
  }

  lemma RoundingBounds(c: nat, t: nat, q: int)
    requires 0 < t && c <= t
    requires q == (200 * c + t) / (2 * t)
    ensures 0 <= q <= 100
    ensures 2 * q * t <= 200 * c + t < 2 * q * t + 2 * t
  {
    var n := 200 * c + t;
    var d := 2 * t;
    assert n == d * q + n % d;
    assert d * q <= n < d * q + d;
    assert n < d * 101;
    ProductOrder(d, q, 101);
  }

  /** Dividing both sides of `d * x < d * y` by a positive `d`. */
  lemma ProductOrder(d: int, x: int, y: int)
    requires d > 0 && d * x < d * y
    ensures x < y
  {
    assert d * (y - x) == d * y - d * x;
  }

  /** 3 correct of 4 is 75%; an all-Distortion or empty summary is 0%. */
  lemma OverallExamples()
    ensures OverallFromSummary(Summary(3, 1, 0, 0, 0)) == 75
    ensures OverallFromSummary(Summary(0, 0, 0, 0, 4)) == 0
    ensures OverallFromSummary(SummarizeSoda([])) == 0
  {
  }

  lemma {:induction false} AllCorrectSummary(results: seq<Json>)
    requires forall k :: 0 <= k < |results| ==> !IsErrorLabel(ErrorType(results[k]))
    ensures SummarizeSoda(results) == Summary(|results|, 0, 0, 0, 0)
  {
    if results != [] {
      BucketOfLabels(results[0]);
      AllCorrectSummary(results[1..]);
    }
  }

  lemma OverallAllCorrect(n: nat)
    requires n > 0
    ensures OverallFromSummary(Summary(n, 0, 0, 0, 0)) == 100
  {
    var pct := OverallFromSummary(Summary(n, 0, 0, 0, 0));
    assert 200 * n < 2 * pct * n + n;
    assert n * 200 < n * (2 * pct + 1);
    ProductOrder(n, 200, 2 * pct + 1);
  }

  /** A non-empty result list that is entirely Correct scores 100%. */
  lemma {:induction false} AllCorrectScoresHundred(results: seq<Json>)
    requires results != []
    requires forall k :: 0 <= k < |results| ==> !IsErrorLabel(ErrorType(results[k]))
    ensures OverallFromSummary(SummarizeSoda(results)) == 100
  {
    AllCorrectSummary(results);
    OverallAllCorrect(|results|);
  }
}
